=== FILE: README.md ===
# EduSync client: question format, quiz attempts and instructor result views

This project models the logic of the EduSync React client in Dafny and proves
properties of it. It covers four pages:

- **Question text format.** The instructor's assessment form turns a question
  list into plain-text blocks (`Q<n>: prompt`, `Options: a, b`, `Answer: x`)
  separated by blank lines. The quiz page reads such text back with
  `parseFormattedQuestions`. Both sides are modelled in `QuestionFormat`, on top
  of JavaScript's `trim`, `split` and `join` in `Text`. The main result is a
  round trip: the reader returns exactly the list the writer was given, for
  every list of writable questions.
- **Quiz attempt** (`TakeAssessment`). The page's React state is the class
  `AttemptSession`, and its effect and handlers are methods:
  - loading chooses between a JSON question array and the text format, and
    classifies failures;
  - selecting an answer stops working once the attempt is submitted;
  - submitting counts correct answers in a loop, rounds the score, appends a
    record to the local history and posts the result once.
- **Assessment page** (`AssessmentsPage`): creating an assessment, with the
  JSON alert and the form reset, and a card's course title.
- **Results page** (`ResultsPage`) and **students list** (`StudentsList`):
  - which assessments belong to the logged-in instructor;
  - which results are shown;
  - how rows are numbered and named.

`Base` holds the array and object helpers the pages use: `find`, `filter`,
`map` and `Object.fromEntries`. `Api` holds the records the server returns.

Conventions:

- The HTTP responses, the outcome of `JSON.parse`, the clock and localStorage
  are all parameters of the operations that use them.
- A missing or empty string is `""`, because the pages only test strings for
  truthiness.
- localStorage is a `map<string, string>`.

The round trip is proved for *writable* questions. A question is writable
when its prompt and answer are non-empty, trimmed and on one line, and it has
at least one option, each non-empty, trimmed and free of commas and line
breaks. Some questions outside that set read back unchanged as well: a list
that also holds empty options, such as `["", "a"]`, is one. The proof does not
cover them (see "Left out"). Outside the writable set the pair can lose
information, and the model keeps that loss rather than hiding it. The cases
include:

- an option containing a comma is cut in two;
- an option with surrounding whitespace comes back trimmed (`" a"` reads back
  as `"a"`);
- an empty option list is written as `Options: ` and read back as `[""]`;
- a single line break inside a prompt, an option or an answer ends that line
  early: the part after it becomes a line of its own that the reader skips
  or misreads (a prompt `"a\nb"` reads back as `"a"`);
- a blank line (two line breaks) inside a field ends the block, and the text
  after it is read as a block of its own, which can yield a different question;
- a prompt or answer that is empty or has surrounding whitespace is dropped
  or trimmed.

The reader never checks the answer against the options, and neither does the
model.

## Model

| member | source | states |
|---|---|---|
| Base.FirstIndex | src/pages/ResultsPage.jsx:125 | `find`: the index returned is the first element that satisfies the predicate; None exactly when no element does |
| Base.Filter | src/pages/ResultsPage.jsx:55 | `filter`: keeps exactly the elements that satisfy the predicate, each as many times as it occurs in the input, as a subsequence in the original order |
| Base.FilterAppend | src/pages/ResultsPage.jsx:55 | filtering a concatenation gives the filtered parts concatenated: `filter` keeps the input order across any split of the input |
| Base.FromEntriesBy | src/pages/StudentsListPage.jsx:23-30 | `Object.fromEntries` over mapped pairs: a key is present exactly when some element has it, and holds the value of the last element with that key |
| Base.FromEntriesByLast | src/pages/StudentsListPage.jsx:23 | (proof helper) a last entry overrides the map built from the entries before it, and the map keeps the last-wins facts |
| Base.FromEntriesByMembers | src/pages/StudentsListPage.jsx:23 | (proof helper) the last-wins facts by index give, by element, the keys present and an element behind each value |
| Base.Map | src/pages/StudentsListPage.jsx:23 | `map`: same length, element `i` is the function applied to input element `i` |
| Base.Lookup | src/pages/StudentsListPage.jsx:36 | indexing an object: a value exactly when the key is present (`undefined` otherwise) |
| Base.SubsequenceIncreasing | src/pages/StudentsListPage.jsx:54-56 | (proof helper) a subsequence of a list with strictly increasing keys has strictly increasing keys |
| Text.TrimStart | src/pages/TakeAssessmentPage.jsx:34 | removes exactly the leading whitespace: what is removed is whitespace, and what remains does not start with whitespace |
| Text.TrimStartAt | src/pages/TakeAssessmentPage.jsx:34 | (proof helper) what `TrimStart` leaves is a tail of the input, character by character |
| Text.Trim | src/pages/TakeAssessmentPage.jsx:32 | the result is trimmed, it is empty exactly when the input is all whitespace, and it is the slice of the input between a whitespace prefix and a whitespace suffix |
| Text.TrimSlice | src/pages/TakeAssessmentPage.jsx:32 | (proof helper) what `trim` keeps lies between a blank prefix and a blank suffix of the input |
| Text.TrimStartSuffix | src/pages/TakeAssessmentPage.jsx:32 | (proof helper) what `trimStart` keeps is a suffix of the input |
| Text.SliceBetweenBlanks | src/pages/TakeAssessmentPage.jsx:32 | (proof helper) a prefix of a suffix, with blank text around it, is a slice between a blank prefix and a blank suffix |
| Text.TrimEnd | src/pages/TakeAssessmentPage.jsx:32 | removes exactly the trailing whitespace: the result is a prefix of the input, the removed tail is whitespace, the result does not end in whitespace |
| Text.TrimKeepsOut | src/pages/TakeAssessmentPage.jsx:32 | trimming introduces no character that was not in the input |
| Text.SplitDropsSeparator | src/pages/TakeAssessmentPage.jsx:32 | no piece cut at a one-character separator contains that separator |
| Text.Split | src/pages/TakeAssessmentPage.jsx:30 | `split` always yields at least one piece; `JoinSplit` and `SplitJoin` tie it to `join` in both directions |
| Text.NatToString | src/pages/AssessmentsPage.jsx:44 | the question number is written as at least one decimal digit and nothing else, so the reader's greedy `\d+` takes it whole (`StripWrittenNumber`) |
| Text.NatToStringValue | src/pages/AssessmentsPage.jsx:44 | the digits written for `n` denote `n` (by the independent `DigitsValue`), with no leading zero unless `n` is 0: the decimal numeral `${n}` produces |
| Text.JoinWith | src/pages/AssessmentsPage.jsx:43-46 | `join`: no ensures of its own; `JoinSplit` and `SplitJoin` make it the inverse of `split` on pieces without the separator, and `JoinStarts` and `JoinEnds` give its first and last characters |
| Text.JoinSplit | src/pages/TakeAssessmentPage.jsx:30 | joining the pieces of `split(sep)` with `sep` gives back the original string |
| Text.SplitJoin | src/pages/AssessmentsPage.jsx:46 | pieces joined with a separator split back into the same pieces, provided no occurrence of the separator starts inside a piece |
| QuestionFormat.BlockLines | src/pages/TakeAssessmentPage.jsx:32 | the lines of a block are non-empty, trimmed and contain no line break |
| QuestionFormat.StripQuestionNumber | src/pages/TakeAssessmentPage.jsx:34 | a line opening with `Q`, digits and a colon loses exactly that number and the whitespace after it; any other line, including one not starting with `Q`, comes back unchanged; a trimmed line stays trimmed |
| QuestionFormat.NumberedAtRun | src/pages/TakeAssessmentPage.jsx:34 | (proof helper) the only question number a line can open with is its whole leading digit run |
| QuestionFormat.OptionsOf | src/pages/TakeAssessmentPage.jsx:35 | the options read from an options line: at least one, each trimmed |
| QuestionFormat.AnswerOf | src/pages/TakeAssessmentPage.jsx:36 | the answer read from an answer line is trimmed and no longer than the text after the label |
| QuestionFormat.StripKeepsOut | src/pages/TakeAssessmentPage.jsx:34 | removing the question number introduces no character |
| QuestionFormat.ParseLines | src/pages/TakeAssessmentPage.jsx:33-38 | a block is dropped if it has fewer than three lines, no `Options:` line or no `Answer:` line; a kept question is readable (both directions: `KeptLines`) |
| QuestionFormat.KeptLines | src/pages/TakeAssessmentPage.jsx:33-38 | a block is kept exactly when it has at least three lines, a prompt left after the number, an `Options:` line, and a first `Answer:` line with a non-empty answer |
| QuestionFormat.ParsedFields | src/pages/TakeAssessmentPage.jsx:34-37 | the prompt is line 0 without its number; options and answer come from the first `Options:` and `Answer:` lines; an empty prompt or answer drops the block |
| QuestionFormat.ParseBlock | src/pages/TakeAssessmentPage.jsx:31-38 | a block with fewer than three non-empty lines, or with no options line, yields nothing; whatever it yields is readable |
| QuestionFormat.OptionsReadable | src/pages/TakeAssessmentPage.jsx:35 | the options cut from an options line are at least one, trimmed, and free of commas and line breaks |
| QuestionFormat.ParseBlocks | src/pages/TakeAssessmentPage.jsx:30-39 | at most one question per block, and every question returned is readable |
| QuestionFormat.ParseBlocksAppend | src/pages/TakeAssessmentPage.jsx:30-39 | blocks are read independently and in order: the questions of `a + b` are those of `a` followed by those of `b` |
| QuestionFormat.BlankBlockSkipped | src/pages/TakeAssessmentPage.jsx:30 | a whitespace-only block contributes no question, wherever it stands |
| QuestionFormat.ParseFormattedQuestions | src/pages/TakeAssessmentPage.jsx:28-40 | a missing or blank payload gives `[]`; otherwise at most one question per `\n\n` block, each readable |
| QuestionFormat.Blocks | src/pages/AssessmentsPage.jsx:41-45 | one block per question; block `i` is the block for question `i` numbered `i + 1` |
| QuestionFormat.QuestionLine | src/pages/AssessmentsPage.jsx:44 | the prompt line opens with `Q`, the number's digits and a colon, followed by a space and the prompt |
| QuestionFormat.QuestionLineNumber | src/pages/AssessmentsPage.jsx:44 | the digits on a question line denote the question's number, so block i (written with number i+1 by `Blocks`) carries the number i+1 |
| QuestionFormat.OptionsLine | src/pages/AssessmentsPage.jsx:43-44 | the written options line is read as an options line and never as an answer line; `ReadWrittenOptions` reads its options back |
| QuestionFormat.AnswerLine | src/pages/AssessmentsPage.jsx:44 | the written answer line is read as an answer line and never as an options line; `ReadWrittenAnswer` reads its answer back |
| QuestionFormat.QuestionBlock | src/pages/AssessmentsPage.jsx:44 | a written block is non-empty and starts with `Q`; `BlockRoundTrip` reads it back |
| QuestionFormat.Serialize | src/pages/AssessmentsPage.jsx:41-46 | the written text is empty exactly when the list is; `RoundTrip` is its inverse |
| QuestionFormat.EmptyRoundTrip | src/pages/AssessmentsPage.jsx:41-46 | the empty list is written as `""`, which reads back as `[]` |
| QuestionFormat.OptionsRoundTrip | src/pages/AssessmentsPage.jsx:43 | options joined with `", "` are split at `','` and trimmed back into the same options |
| QuestionFormat.WrittenLines | src/pages/AssessmentsPage.jsx:44 | the three lines written for a writable question are non-empty, trimmed and one line each |
| QuestionFormat.StripWrittenNumber | src/pages/AssessmentsPage.jsx:44 | the reader strips exactly the `Q<n>: ` the writer put in front of the prompt |
| QuestionFormat.ReadWrittenOptions | src/pages/AssessmentsPage.jsx:43-44 | the options read from the written options line are exactly the question's options |
| QuestionFormat.ReadWrittenAnswer | src/pages/AssessmentsPage.jsx:44 | the answer read from the written answer line is exactly the question's answer |
| QuestionFormat.JoinStarts | src/pages/AssessmentsPage.jsx:46 | text joined from pieces whose first is non-empty starts with that piece's first character |
| QuestionFormat.JoinEnds | src/pages/AssessmentsPage.jsx:43 | text joined from pieces whose last is non-empty ends with that piece's last character |
| QuestionFormat.BlockRoundTrip | src/pages/AssessmentsPage.jsx:44 | each written block reads back as the question it was written from |
| QuestionFormat.SerializedNotBlank | src/pages/AssessmentsPage.jsx:41-46 | the text written for a non-empty list starts with `Q`, so it is not blank |
| QuestionFormat.RoundTrip | src/pages/AssessmentsPage.jsx:41-46 | `parseFormattedQuestions(serialise(qs)) == qs` for every list of writable questions |
| Api.InstructorCourses | src/pages/StudentsListPage.jsx:22 | exactly the courses whose `instructorId` equals the current user's, in API order |
| Api.InstructorCoursesCounts | src/pages/StudentsListPage.jsx:22 | each of the instructor's courses is kept as often as the API lists it, every other course not at all |
| TakeAssessment.GetAuthHeaders | src/pages/TakeAssessmentPage.jsx:19-26 | bearer header from the first truthy of `token`, `authToken` and `accessToken`; fails with the log-in message exactly when none is truthy |
| TakeAssessment.LoadErrorMessage | src/pages/TakeAssessmentPage.jsx:59-65 | the authentication message on 401, the permission message on 403, otherwise the error's message or the default one; never empty |
| TakeAssessment.LoadQuestions | src/pages/TakeAssessmentPage.jsx:49-55 | a JSON array is used as-is; other JSON gives `[]`; only a JSON syntax error falls back to the text parser |
| TakeAssessment.WrittenQuestionsLoad | src/pages/TakeAssessmentPage.jsx:49-55 | text written by the assessment form is never taken for JSON, so the quiz reads back exactly the questions entered |
| TakeAssessment.CorrectIndicesBound | src/pages/TakeAssessmentPage.jsx:82-84 | (proof helper) at most `k` of the first `k` questions are answered correctly |
| TakeAssessment.CorrectCount | src/pages/TakeAssessmentPage.jsx:81-84 | the number of correctly answered questions is at most the number of questions |
| TakeAssessment.CountCorrect | src/pages/TakeAssessmentPage.jsx:81-84 | the `forEach` loop counts exactly the indices whose recorded answer equals the question's correct answer |
| TakeAssessment.Score | src/pages/TakeAssessmentPage.jsx:85 | the integer nearest to `correct·maxScore/n`, halves rounded up; between 0 and maxScore when maxScore ≥ 0; maxScore when all are correct; 0 when none are |
| TakeAssessment.ScoreBounds | src/pages/TakeAssessmentPage.jsx:85 | (proof helper) the rounding bounds and the range facts that `Score` promises |
| TakeAssessment.DivUnique | src/pages/TakeAssessmentPage.jsx:85 | (proof helper) the quotient is the unique `q` with `d·q ≤ x < d·q + d` |
| TakeAssessment.ElapsedSeconds | src/pages/TakeAssessmentPage.jsx:88 | whole seconds elapsed: `1000·s ≤ now − start < 1000·s + 1000` |
| TakeAssessment.AppendResult | src/pages/TakeAssessmentPage.jsx:99-103 | exactly one record appended at the end, earlier records unchanged; an unreadable history is left as it is |
| TakeAssessment.AppendResultsInOrder | src/pages/TakeAssessmentPage.jsx:100-102 | successive attempts are kept in the order they were made |
| TakeAssessment.AttemptSession.constructor | src/pages/TakeAssessmentPage.jsx:8-16 | the initial state: nothing loaded, nothing answered, loading |
| TakeAssessment.AttemptSession.Load | src/pages/TakeAssessmentPage.jsx:42-72 | no id: nothing happens. No token: the log-in error. A failed GET: its message. A successful GET: the assessment, its questions and the start time. Answers and submission are untouched |
| TakeAssessment.AttemptSession.Receive | src/pages/TakeAssessmentPage.jsx:47-65 | what a GET's answer does to the state: questions via `LoadQuestions` and the start time on success, the classified message on failure |
| TakeAssessment.AttemptSession.SelectOption | src/pages/TakeAssessmentPage.jsx:74-77 | no-op after submission; otherwise `answers[qIndex] := option`, every other index and field unchanged; the session invariant is kept |
| TakeAssessment.AttemptSession.Submit | src/pages/TakeAssessmentPage.jsx:79-116 | nothing when already submitted or there are no questions. Otherwise: submitted with the rounded score; one record appended to the history; at most one post; `resultSubmitted` true exactly when the post is sent and succeeds |
| AssessmentsPage.CourseTitle | src/pages/AssessmentsPage.jsx:172-183 | title of the first course with that id; "Unknown" when there is none or its title is empty |
| AssessmentsPage.AssessmentsView.constructor | src/pages/AssessmentsPage.jsx:7-14 | empty lists and the empty form with maxScore 100 |
| AssessmentsPage.AssessmentsView.FetchAssessments | src/pages/AssessmentsPage.jsx:18-25 | a successful GET replaces the list; a failed one changes nothing |
| AssessmentsPage.AssessmentsView.FetchCourses | src/pages/AssessmentsPage.jsx:27-34 | a successful GET replaces the list; a failed one changes nothing |
| AssessmentsPage.AssessmentsView.CreateAssessment | src/pages/AssessmentsPage.jsx:36-66 | invalid JSON: the JSON alert, nothing posted, form kept. Otherwise the posted payload copies the form's fields and carries the serialised questions; on success the form is reset and the list refetched |
| ResultsPage.InstructorCourseIds | src/pages/ResultsPage.jsx:26-28 | exactly the ids of the courses taught by the instructor |
| ResultsPage.InstructorAssessments | src/pages/ResultsPage.jsx:26-32 | an assessment is kept exactly when its course is one of the instructor's, as often as it occurs in the API list; kept assessments stay in API order |
| ResultsPage.ResultsFor | src/pages/ResultsPage.jsx:55 | exactly the results of the selected assessment, in order |
| ResultsPage.ResultsForPartition | src/pages/ResultsPage.jsx:55 | the results of one assessment plus those of all others are all the results |
| ResultsPage.StudentOf | src/pages/ResultsPage.jsx:125 | the first user with the result's user id; None exactly when there is none |
| ResultsPage.Row | src/pages/ResultsPage.jsx:134-139 | numbered `i + 1`; the found student's full name, or "Unknown" when there is no student or the name is empty; the email, or "N/A" when there is no student or the email is empty; the attempt date, or "N/A" when it is empty |
| ResultsPage.Rows | src/pages/ResultsPage.jsx:124-143 | one row per result, in result order |
| ResultsPage.ResultsView.constructor | src/pages/ResultsPage.jsx:6-11 | empty lists, nothing selected |
| ResultsPage.ResultsView.FetchAssessments | src/pages/ResultsPage.jsx:19-38 | on success, the instructor's assessments; on failure, nothing changes |
| ResultsPage.ResultsView.FetchStudents | src/pages/ResultsPage.jsx:41-48 | a successful GET replaces the students; a failed one changes nothing |
| ResultsPage.ResultsView.ChangeAssessment | src/pages/ResultsPage.jsx:51-69 | the id is stored. An empty id clears the results without fetching. Any other id fetches and keeps exactly that assessment's results; a failed fetch keeps the old ones |
| StudentsList.CourseMap | src/pages/StudentsListPage.jsx:22-23 | keys are exactly the instructor's course ids; each title is that of an instructor course with the id; on a duplicate id the later course's title wins |
| StudentsList.CourseMapKeys | src/pages/StudentsListPage.jsx:22-23 | (proof helper) the map built from the instructor's courses has their ids as keys and their titles as values |
| StudentsList.CourseEntries | src/pages/StudentsListPage.jsx:22-23 | (proof helper) the same, for any map whose entries come from the instructor's courses |
| StudentsList.CourseMapLast | src/pages/StudentsListPage.jsx:22-23 | (proof helper) on a duplicate course id the map holds the last such course's title |
| StudentsList.KeptAssessments | src/pages/StudentsListPage.jsx:25 | an assessment is kept exactly when its course maps to a non-empty title, as often as it occurs in the API list; order is kept |
| StudentsList.AssessmentMap | src/pages/StudentsListPage.jsx:28 | keys are exactly the kept assessment ids; each value is the non-empty title of that assessment's course; on a duplicate assessment id the later assessment's title wins |
| StudentsList.AssessmentMapLast | src/pages/StudentsListPage.jsx:28 | (proof helper) on a duplicate assessment id the map holds the course title of the last such assessment |
| StudentsList.AssessmentMapFacts | src/pages/StudentsListPage.jsx:28 | (proof helper) the map built from the kept assessments has their ids as keys and their course titles as values |
| StudentsList.AssessmentEntries | src/pages/StudentsListPage.jsx:28 | (proof helper) the same, for any map whose entries come from the kept assessments |
| StudentsList.DisplayName | src/pages/StudentsListPage.jsx:30 | `fullName`, else `name`, else "Unknown"; never empty |
| StudentsList.UsersMap | src/pages/StudentsListPage.jsx:30 | keys are exactly the user ids; values are display names, the later user winning |
| StudentsList.ShownResults | src/pages/StudentsListPage.jsx:33 | exactly the results whose assessment maps to a course title, each as often as in the API list, in order |
| StudentsList.Rows | src/pages/StudentsListPage.jsx:32-41 | one row per shown result, numbered 1..k in result order, each row with its assessment id, score, raw attempt date, its assessment's course title and its student (undefined when unknown) |
| StudentsList.FetchData | src/pages/StudentsListPage.jsx:13-43 | the listed assessments are the kept ones; the table is the rows joined from the results through the assessment and user maps; rows are numbered consecutively from 1 |
| StudentsList.RowsBelongToInstructor | src/pages/StudentsListPage.jsx:22-41 | every row's course is the non-empty title of one of the instructor's courses, and its assessment is a listed one |
| StudentsList.ResultsGetRows | src/pages/StudentsListPage.jsx:25-41 | the converse: a result gets a row exactly when its assessment is a listed one, and the row carries its assessment id, score, date and student |
| StudentsList.RowsCover | src/pages/StudentsListPage.jsx:32-41 | (proof helper) the same, for any assessment map keyed by the listed assessments with non-empty titles |
| StudentsList.FilteredData | src/pages/StudentsListPage.jsx:54-56 | the empty filter shows every row; otherwise exactly the rows of that assessment, each as often as in the table, in order |
| StudentsList.FilteredNumbersIncrease | src/pages/StudentsListPage.jsx:54-56 | filtering does not renumber: the row numbers shown are strictly increasing original numbers |

## Left out

- HTTP: every `api.get`, `api.post` and `api.delete` is an input. A response is `Some`/`Success` or `None`/`Failure`, and a POST's outcome is a boolean.
- `JSON.parse` and `JSON.stringify`: their outcome is the `JsonOutcome` datatype (syntax error, array of questions, other value).
  - The model assumes only that a text accepted as JSON starts like a JSON value.
  - JSON question objects with missing or mistyped fields are not modelled; a question's fields are strings.
- localStorage is a `map<string, string>` passed in, and the stored history is a `StoredHistory` value returned. The distinction between `undefined` and `null` for missing keys is not kept.
- TakeAssessment.Score: computed over exact rationals as `(2·correct·maxScore + n) div 2n`. The source computes `Math.round` of a floating-point quotient, which can differ at rare halfway boundaries.
- The clock is an input (`now`). `new Date().toISOString()` attempt dates are left out of the history record and the posted body. `toLocaleString` formatting of dates is left out, so rows carry the raw date string.
- Asynchrony: each handler runs to completion with its responses given up front. Interleavings of concurrent requests and React's batching of state updates are not modelled.
- Rendering, animation, navigation (`navigate`), the form's `onChange` handlers and the delete button of the assessment page are not modelled.
- The loading and error flags of the results and students pages are not modelled beyond `ResultsView.loading`.
- The students page's failure path (any failed GET logs and leaves the page empty) is not modelled; `StudentsList.FetchData` is the success path.
- After the number input is edited, `maxScore` holds a string. The model keeps it an integer.
- `Object.fromEntries` maps are plain maps: keys that clash with `Object.prototype` members (`"constructor"`, `"__proto__"`) are not modelled.
- ResultsPage's effect reads `fetchAssessments` and `fetchStudents` before their `const` declarations (src/pages/ResultsPage.jsx:13-16), which would throw at render. The model keeps the fetch rules and not the hook ordering.
- QuestionFormat.RoundTrip: proved only for writable questions, whose options are all non-empty. Lists that also hold empty options (`["", "a"]`) read back unchanged as well, but the proof does not cover them; a trailing empty option makes the written options line end in whitespace, which the writable case never has to handle.
- Ids (`userId`, `courseId`, `assessmentId`, `instructorId`) are modelled as strings compared by equality. The pages compare them with `===`, which matches as long as the server sends every id with the same JSON type.
- CreateAssessmentPage and EditAssessmentPage are not part of this model; they only validate JSON.

=== FILE: api.dfy ===
/** The records the EduSync API returns, with the fields the pages read. Ids
    are strings; the empty string stands for a missing or empty value where
    the pages only test it for truthiness. */
module Api {
  import opened Base

  /** A course; `instructorId` is `null` (None) when the course has none. */
  datatype Course = Course(courseId: string, title: string, instructorId: Option<string>)

  /** An assessment; `question` holds its questions, as JSON or in the
      plain-text question format, and may be missing. */
  datatype Assessment = Assessment(assessmentId: string, courseId: string, title: string, maxScore: int,
                                   question: Option<string>)

  /** One stored attempt of a student at an assessment. */
  datatype AttemptResult = AttemptResult(resultId: string, assessmentId: string, userId: string, score: int,
                                         attemptDate: string)

  datatype User = User(userId: string, name: string, fullName: string, email: string)

  /** The courses taught by `instructorId`, in API order; `instructorId` is
      `null` (None) when nobody is logged in, and then the courses without an
      instructor match. */
  function InstructorCourses(courses: seq<Course>, instructorId: Option<string>): (r: seq<Course>)
    ensures forall c :: c in r <==> c in courses && c.instructorId == instructorId
    ensures IsSubsequence(r, courses)
  {
    Filter(courses, (c: Course) => c.instructorId == instructorId)
  }

  /** Each of the instructor's courses is kept as many times as the API lists
      it, and every other course not at all. */
  lemma InstructorCoursesCounts(courses: seq<Course>, instructorId: Option<string>)
    ensures var r := InstructorCourses(courses, instructorId);
      forall c :: multiset(r)[c] == if c.instructorId == instructorId then multiset(courses)[c] else 0
  {
    var p := (c: Course) => c.instructorId == instructorId;
    assert InstructorCourses(courses, instructorId) == Filter(courses, p);
  }
}

=== FILE: assessments_page.dfy ===
/** The instructor's assessment page, src/pages/AssessmentsPage.jsx: the
    create form, which turns a JSON question list into the plain-text
    question format before posting it, and the cards listing the assessments
    with their course. */
module AssessmentsPage {
  import opened Base
  import opened Api
  import opened QuestionFormat

  /** The create form. `questions` is the JSON the instructor typed. */
  datatype Form = Form(courseId: string, title: string, maxScore: int, questions: string)

  /** The form as it starts out and as it is reset after a successful create. */
  const EmptyForm: Form := Form("", "", 100, "")

  /** The body posted to /Assessments. */
  datatype Payload = Payload(courseId: string, title: string, maxScore: int, question: string)

  const InvalidJsonAlert: string := "\U{2757} Please enter valid JSON for the Questions field."
  const CreateFailedAlert: string := "Failed to create assessment. Check console."

  /** The course title shown next to an assessment: the title of the first
      course with that id, or "Unknown" when there is no such course or its
      title is empty. */
  function CourseTitle(courses: seq<Course>, courseId: string): (r: string)
    ensures r != ""
    ensures (forall i :: 0 <= i < |courses| ==> courses[i].courseId != courseId) ==> r == "Unknown"
    ensures forall i :: 0 <= i < |courses| && courses[i].courseId == courseId &&
                        (forall j :: 0 <= j < i ==> courses[j].courseId != courseId) ==>
                        r == if courses[i].title != "" then courses[i].title else "Unknown"
  {
    match FirstIndex(courses, (c: Course) => c.courseId == courseId)
    case None => "Unknown"
    case Some(i) => if courses[i].title != "" then courses[i].title else "Unknown"
  }

  /** The page's state. */
  class AssessmentsView {
    var assessments: seq<Assessment>
    var courses: seq<Course>
    var form: Form

    constructor ()
      ensures assessments == [] && courses == [] && form == EmptyForm
    {
      assessments := [];
      courses := [];
      form := EmptyForm;
    }

    /** `fetchAssessments`: a failed GET (None) leaves the list as it was. */
    method FetchAssessments(response: Option<seq<Assessment>>)
      modifies this
      ensures response.Some? ==> assessments == response.value
      ensures response.None? ==> assessments == old(assessments)
      ensures courses == old(courses) && form == old(form)
    {
      if response.Some? {
        assessments := response.value;
      }
    }

    /** `fetchCourses`: a failed GET (None) leaves the list as it was. */
    method FetchCourses(response: Option<seq<Course>>)
      modifies this
      ensures response.Some? ==> courses == response.value
      ensures response.None? ==> courses == old(courses)
      ensures assessments == old(assessments) && form == old(form)
    {
      if response.Some? {
        courses := response.value;
      }
    }

    /** `handleCreateAssessment`. `json` is what `JSON.parse` makes of the
        form's questions and `postSucceeds` the outcome of the POST, should
        one be sent. Returns the body posted, the alert shown, and whether the
        list is fetched again. */
    method CreateAssessment(json: JsonOutcome, postSucceeds: bool)
      returns (payload: Option<Payload>, alert: Option<string>, refetch: bool)
      modifies this
      ensures assessments == old(assessments) && courses == old(courses)
      ensures json.JsonSyntaxError? ==>
        payload == None && alert == Some(InvalidJsonAlert) && !refetch && form == old(form)
      ensures json.JsonNonArray? ==>
        payload == None && alert == Some(CreateFailedAlert) && !refetch && form == old(form)
      ensures json.JsonArray? ==>
        payload == Some(Payload(old(form).courseId, old(form).title, old(form).maxScore, Serialize(json.items)))
      ensures json.JsonArray? && postSucceeds ==> alert == None && refetch && form == EmptyForm
      ensures json.JsonArray? && !postSucceeds ==> alert == Some(CreateFailedAlert) && !refetch && form == old(form)
    {
      payload, alert, refetch := None, None, false;
      match json {
        case JsonSyntaxError =>
          alert := Some(InvalidJsonAlert);
        case JsonNonArray =>
          alert := Some(CreateFailedAlert);
        case JsonArray(items) =>
          payload := Some(Payload(form.courseId, form.title, form.maxScore, Serialize(items)));
          if postSucceeds {
            form := EmptyForm;
            refetch := true;
          } else {
            alert := Some(CreateFailedAlert);
          }
      }
    }
  }
}

=== FILE: base.dfy ===
/** Small building blocks shared by the page models: the JavaScript library
    operations the pages lean on (Array.prototype.find, Array.prototype.filter,
    Object.fromEntries) stated once, with what they promise. */
module Base {

  datatype Option<+T> = None | Some(value: T)

  datatype Result<+T, +E> = Success(value: T) | Failure(error: E)

  /** Index of the first element of `s` that satisfies `p`, the way
      `Array.prototype.find` picks its element; `None` when no element does. */
  function FirstIndex<T>(s: seq<T>, p: T -> bool): (r: Option<nat>)
    ensures r.Some? ==> r.value < |s| && p(s[r.value])
    ensures r.Some? ==> forall j :: 0 <= j < r.value ==> !p(s[j])
    ensures r.None? <==> forall j :: 0 <= j < |s| ==> !p(s[j])
  {
    if |s| == 0 then None
    else if p(s[0]) then Some(0)
    else match FirstIndex(s[1..], p)
      case None => None
      case Some(i) => Some(i + 1)
  }

  /** `a` can be obtained from `b` by deleting elements: same order, no new elements. */
  ghost predicate IsSubsequence<T>(a: seq<T>, b: seq<T>)
    decreases |b|
  {
    if |a| == 0 then true
    else if |b| == 0 then false
    else (a[0] == b[0] && IsSubsequence(a[1..], b[1..])) || IsSubsequence(a, b[1..])
  }

  /** `Array.prototype.filter`: the elements of `s` that satisfy `p`, in order. */
  function Filter<T(!new)>(s: seq<T>, p: T -> bool): (r: seq<T>)
    ensures |r| <= |s|
    ensures forall x :: x in r <==> x in s && p(x)
    ensures IsSubsequence(r, s)
    ensures forall x :: multiset(r)[x] == if p(x) then multiset(s)[x] else 0
  {
    if |s| == 0 then []
    else
      assert s == [s[0]] + s[1..];
      if p(s[0]) then
        var rest := Filter(s[1..], p);
        assert ([s[0]] + rest)[1..] == rest;
        [s[0]] + rest
      else Filter(s[1..], p)
  }

  /** Filtering a concatenation filters each part: the order of the input is kept. */
  lemma {:induction false} FilterAppend<T(!new)>(s: seq<T>, t: seq<T>, p: T -> bool)
    ensures Filter(s + t, p) == Filter(s, p) + Filter(t, p)
  {
    if |s| == 0 {
      assert s + t == t;
    } else {
      assert (s + t)[1..] == s[1..] + t;
      FilterAppend(s[1..], t, p);
    }
  }

  /** A filter that every element passes keeps the whole sequence. */
  lemma {:induction false} FilterAll<T(!new)>(s: seq<T>, p: T -> bool)
    requires forall i :: 0 <= i < |s| ==> p(s[i])
    ensures Filter(s, p) == s
  {
    if |s| > 0 {
      FilterAll(s[1..], p);
      assert [s[0]] + s[1..] == s;
    }
  }

  /** `Object.fromEntries` over the elements of `s`, each giving the entry
      `key` of it to `value` of it: every key of an element is present, and
      holds the value of the last element with that key. */
  function FromEntriesBy<T, K(!new), V>(s: seq<T>, key: T -> K, value: T -> V): (m: map<K, V>)
    ensures forall k :: k in m <==> exists i :: 0 <= i < |s| && key(s[i]) == k
    ensures forall k :: k in m ==> exists i :: (0 <= i < |s| && key(s[i]) == k && m[k] == value(s[i]) &&
                                                forall j :: i < j < |s| ==> key(s[j]) != k)
  {
    if |s| == 0 then map[]
    else
      var init := s[..|s| - 1];
      var x := s[|s| - 1];
      var m := FromEntriesBy(init, key, value);
      var r := m[key(x) := value(x)];
      FromEntriesByLast(init, x, key, value, m);
      assert s == init + [x];
      r
  }

  /** The step of `FromEntriesBy`: the entry of a last element `x` overrides
      the map of the elements before it. */
  lemma FromEntriesByLast<T, K(!new), V>(init: seq<T>, x: T, key: T -> K, value: T -> V, m: map<K, V>)
    requires forall k :: k in m <==> exists i :: 0 <= i < |init| && key(init[i]) == k
    requires forall k :: k in m ==> exists i :: (0 <= i < |init| && key(init[i]) == k && m[k] == value(init[i]) &&
                                                 forall j :: i < j < |init| ==> key(init[j]) != k)
    ensures var s, r := init + [x], m[key(x) := value(x)];
      && (forall k :: k in r <==> exists i :: 0 <= i < |s| && key(s[i]) == k)
      && (forall k :: k in r ==> exists i :: (0 <= i < |s| && key(s[i]) == k && r[k] == value(s[i]) &&
                                              forall j :: i < j < |s| ==> key(s[j]) != k))
  {
    var s, r := init + [x], m[key(x) := value(x)];
    assert forall i :: 0 <= i < |init| ==> s[i] == init[i];
    assert s[|init|] == x;
    forall k | k in r
      ensures exists i :: (0 <= i < |s| && key(s[i]) == k && r[k] == value(s[i]) &&
                           forall j :: i < j < |s| ==> key(s[j]) != k)
    {
      if k != key(x) {
        var i :| 0 <= i < |init| && key(init[i]) == k && m[k] == value(init[i]) &&
                 forall j :: i < j < |init| ==> key(init[j]) != k;
        assert r[k] == value(s[i]);
      }
    }
  }

  /** The facts of `FromEntriesBy` by index, restated by element: a key is
      present exactly when some element has it, and its value is the value
      of an element with that key. */
  lemma FromEntriesByMembers<T, K(!new), V>(s: seq<T>, key: T -> K, value: T -> V, m: map<K, V>)
    requires forall k :: k in m <==> exists i :: 0 <= i < |s| && key(s[i]) == k
    requires forall k :: k in m ==> exists i :: 0 <= i < |s| && key(s[i]) == k && m[k] == value(s[i])
    ensures forall k :: k in m <==> exists t :: t in s && key(t) == k
    ensures forall k :: k in m ==> exists t :: t in s && key(t) == k && m[k] == value(t)
  {
    forall k | k in m ensures exists t :: t in s && key(t) == k && m[k] == value(t) {
      var i :| 0 <= i < |s| && key(s[i]) == k && m[k] == value(s[i]);
      assert s[i] in s;
    }
    forall t | t in s ensures key(t) in m {
      var i :| 0 <= i < |s| && s[i] == t;
      assert 0 <= i < |s| && key(s[i]) == key(t);
    }
  }

  /** `Array.prototype.map`. */
  function Map<T, U>(s: seq<T>, f: T -> U): (r: seq<U>)
    ensures |r| == |s| && forall i :: 0 <= i < |s| ==> r[i] == f(s[i])
  {
    seq(|s|, i requires 0 <= i < |s| => f(s[i]))
  }

  /** A subsequence holds nothing its sequence does not. */
  lemma {:induction false} SubsequenceMembers<T>(a: seq<T>, b: seq<T>)
    requires IsSubsequence(a, b)
    ensures forall x :: x in a ==> x in b
    decreases |b|
  {
    if |a| > 0 {
      if a[0] == b[0] && IsSubsequence(a[1..], b[1..]) {
        SubsequenceMembers(a[1..], b[1..]);
        assert forall x :: x in a ==> x == a[0] || x in a[1..];
      } else {
        SubsequenceMembers(a, b[1..]);
      }
    }
  }

  /** Deleting elements keeps a strictly increasing key strictly increasing. */
  lemma {:induction false} SubsequenceIncreasing<T>(a: seq<T>, b: seq<T>, key: T -> int)
    requires IsSubsequence(a, b)
    requires forall i, j :: 0 <= i < j < |b| ==> key(b[i]) < key(b[j])
    ensures forall i, j :: 0 <= i < j < |a| ==> key(a[i]) < key(a[j])
    decreases |b|
  {
    if |a| > 0 {
      if a[0] == b[0] && IsSubsequence(a[1..], b[1..]) {
        SubsequenceIncreasing(a[1..], b[1..], key);
        SubsequenceMembers(a[1..], b[1..]);
        forall j | 0 < j < |a| ensures key(a[0]) < key(a[j]) {
          assert a[j] == a[1..][j - 1];
          assert a[j] in b[1..];
          var m :| 0 <= m < |b[1..]| && b[1..][m] == a[j];
          assert b[m + 1] == a[j];
        }
        forall i, j | 0 <= i < j < |a| ensures key(a[i]) < key(a[j]) {
          if i > 0 {
            assert a[i] == a[1..][i - 1] && a[j] == a[1..][j - 1];
          }
        }
      } else {
        SubsequenceIncreasing(a, b[1..], key);
      }
    }
  }

  /** A map lookup that may miss, as a JavaScript property read or
      `localStorage.getItem` does. */
  function Lookup<K, V>(m: map<K, V>, key: K): (r: Option<V>)
    ensures r.Some? <==> key in m
    ensures r.Some? ==> r.value == m[key]
  {
    if key in m then Some(m[key]) else None
  }
}

=== FILE: question_format.dfy ===
/** The plain-text question format shared by the instructor's assessment form
    (the writer, src/pages/AssessmentsPage.jsx) and the quiz page (the reader,
    `parseFormattedQuestions` in src/pages/TakeAssessmentPage.jsx).

    A payload is a list of blocks separated by a blank line; each block is
      Q<n>: <prompt>
      Options: <option>, <option>, ...
      Answer: <correct answer>                                               */
module QuestionFormat {
  import opened Base
  import opened Text

  datatype Question = Question(questionText: string, options: seq<string>, correctAnswer: string)

  /** What every question the reader produces looks like: prompt and answer
      non-empty, trimmed and on one line; at least one option, each trimmed,
      on one line and without a comma. */
  predicate IsReadable(q: Question)
  {
    && q.questionText != [] && IsTrimmed(q.questionText) && '\n' !in q.questionText
    && q.correctAnswer != [] && IsTrimmed(q.correctAnswer) && '\n' !in q.correctAnswer
    && |q.options| >= 1
    && forall i :: 0 <= i < |q.options| ==> IsTrimmed(q.options[i]) && ',' !in q.options[i] && '\n' !in q.options[i]
  }

  /** The questions the writer can hand to the reader without loss: readable,
      and no option is empty. */
  predicate IsWritable(q: Question)
  {
    IsReadable(q) && forall i :: 0 <= i < |q.options| ==> q.options[i] != []
  }

  // ---------------------------------------------------------------- reader

  /** Each string trimmed of leading and trailing whitespace. */
  function TrimAll(xs: seq<string>): (r: seq<string>)
    ensures |r| == |xs| && forall i :: 0 <= i < |xs| ==> r[i] == Trim(xs[i])
  {
    Map(xs, Trim)
  }

  /** Non-empty, trimmed, one-line lines. */
  predicate AreLines(lines: seq<string>)
  {
    forall i :: 0 <= i < |lines| ==> lines[i] != [] && IsTrimmed(lines[i]) && '\n' !in lines[i]
  }

  /** The lines of a block, each trimmed, with the blank ones dropped. */
  function BlockLines(block: string): (lines: seq<string>)
    ensures AreLines(lines)
  {
    var pieces := Split(block, "\n");
    var trimmed := TrimAll(pieces);
    var lines := Filter(trimmed, (l: string) => l != []);
    SplitDropsSeparator(block, '\n');
    forall i | 0 <= i < |lines| ensures lines[i] != [] && IsTrimmed(lines[i]) && '\n' !in lines[i] {
      assert lines[i] in lines;
      var j :| 0 <= j < |trimmed| && trimmed[j] == lines[i];
      assert trimmed[j] == Trim(pieces[j]);
      TrimKeepsOut(pieces[j], '\n');
    }
    lines
  }

  /** `line` opens with a question number of `k` digits: a capital Q, then
      the `k` digits, then a colon; anything may follow the colon. */
  predicate NumberedAt(line: string, k: int)
  {
    0 < k && k + 1 < |line| && line[0] == 'Q' && line[k + 1] == ':' &&
    forall i :: 1 <= i <= k ==> IsDigit(line[i])
  }

  /** Removes a leading question number: a capital Q, one or more decimal
      digits and a colon, together with the whitespace after them. A line
      that does not start that way is left alone. */
  function StripQuestionNumber(line: string): (r: string)
    ensures |r| <= |line|
    ensures IsTrimmed(line) ==> IsTrimmed(r)
    ensures (|line| == 0 || line[0] != 'Q') ==> r == line
    ensures forall k :: NumberedAt(line, k) ==> r == TrimStart(line[k + 2..])
    ensures (forall k :: !NumberedAt(line, k)) ==> r == line
  {
    if |line| > 0 && line[0] == 'Q' then
      var k := DigitRun(line[1..]);
      NumberedAtRun(line);
      if k > 0 && 1 + k < |line| && line[1 + k] == ':' then
        assert NumberedAt(line, k) by {
          forall i | 1 <= i <= k ensures IsDigit(line[i]) {
            assert line[i] == line[1..][i - 1];
          }
        }
        TrimStart(line[2 + k..])
      else line
    else line
  }

  /** The only question number a line can open with is its whole leading
      run of digits, since a colon is not a digit. */
  lemma NumberedAtRun(line: string)
    requires |line| > 0
    ensures forall k :: NumberedAt(line, k) ==> k == DigitRun(line[1..])
  {
    var s := line[1..];
    var run := DigitRun(s);
    assert forall i :: 0 <= i < |s| ==> s[i] == line[i + 1];
    forall k | NumberedAt(line, k) ensures k == run {
      assert !IsDigit(s[k]);
    }
  }

  predicate IsOptionsLine(l: string) { StartsWith(l, "Options:") }

  predicate IsAnswerLine(l: string) { StartsWith(l, "Answer:") }

  /** The question one block stands for, or `None` when the block is dropped. */
  function ParseBlock(block: string): (r: Option<Question>)
    ensures |BlockLines(block)| < 3 ==> r.None?
    ensures (forall i :: 0 <= i < |BlockLines(block)| ==> !IsOptionsLine(BlockLines(block)[i])) ==> r.None?
    ensures r.Some? ==> IsReadable(r.value)
  {
    ParseLines(BlockLines(block))
  }

  /** Line `i` is the first line starting with `prefix`. */
  predicate FirstOf(lines: seq<string>, i: int, prefix: string)
    requires 0 <= i < |lines|
  {
    StartsWith(lines[i], prefix) && forall j :: 0 <= j < i ==> !StartsWith(lines[j], prefix)
  }

  /** The options an options line lists: the text after the label and the
      whitespace behind it, cut at every comma, each piece trimmed. */
  function OptionsOf(optionsLine: string): (r: seq<string>)
    requires IsOptionsLine(optionsLine)
    ensures |r| >= 1 && forall i :: 0 <= i < |r| ==> IsTrimmed(r[i])
  {
    TrimAll(Split(TrimStart(optionsLine[|"Options:"|..]), ","))
  }

  /** The answer an answer line gives: the text after the label, trimmed. */
  function AnswerOf(answerLine: string): (r: string)
    requires IsAnswerLine(answerLine)
    ensures IsTrimmed(r) && |r| <= |answerLine| - |"Answer:"|
  {
    Trim(TrimStart(answerLine[|"Answer:"|..]))
  }

  /** The question read from the non-empty trimmed lines of one block: the
      first line is the prompt, the first "Options:" line and the first
      "Answer:" line give the rest; fewer than three lines, an empty prompt,
      a missing line or an empty answer drop the block. */
  function ParseLines(lines: seq<string>): (r: Option<Question>)
    requires AreLines(lines)
    ensures |lines| < 3 ==> r.None?
    ensures (forall i :: 0 <= i < |lines| ==> !IsOptionsLine(lines[i])) ==> r.None?
    ensures (forall i :: 0 <= i < |lines| ==> !IsAnswerLine(lines[i])) ==> r.None?
    ensures r.Some? ==> IsReadable(r.value)
  {
    if |lines| < 3 then None
    else
      var question := StripQuestionNumber(lines[0]);
      var optionsAt := FirstIndex(lines, IsOptionsLine);
      var answerAt := FirstIndex(lines, IsAnswerLine);
      if question == [] || optionsAt.None? || answerAt.None? then None
      else
        var optionsLine := lines[optionsAt.value];
        var answerLine := lines[answerAt.value];
        var options := OptionsOf(optionsLine);
        var answer := AnswerOf(answerLine);
        if answer == [] then None
        else
          ReadableParts(lines[0], question, optionsLine, options, answerLine, answer);
          Some(Question(question, options, answer))
  }

  /** Where a kept question's fields come from: the prompt is line 0 without
      its number, the options and the answer come from the first "Options:"
      and the first "Answer:" line; an empty prompt or an empty answer drops
      the block. */
  lemma ParsedFields(lines: seq<string>)
    requires AreLines(lines)
    ensures |lines| > 0 && StripQuestionNumber(lines[0]) == [] ==> ParseLines(lines).None?
    ensures forall i :: 0 <= i < |lines| && FirstOf(lines, i, "Answer:") && AnswerOf(lines[i]) == [] ==>
      ParseLines(lines).None?
    ensures ParseLines(lines).Some? ==> ParseLines(lines).value.questionText == StripQuestionNumber(lines[0])
    ensures ParseLines(lines).Some? ==>
      exists i :: (0 <= i < |lines| && FirstOf(lines, i, "Options:") &&
                   ParseLines(lines).value.options == OptionsOf(lines[i]))
    ensures ParseLines(lines).Some? ==>
      exists i :: (0 <= i < |lines| && FirstOf(lines, i, "Answer:") &&
                   ParseLines(lines).value.correctAnswer == AnswerOf(lines[i]))
  {
    if |lines| >= 3 {
      var optionsAt := FirstIndex(lines, IsOptionsLine);
      var answerAt := FirstIndex(lines, IsAnswerLine);
      if optionsAt.Some? {
        assert FirstOf(lines, optionsAt.value, "Options:");
      }
      if answerAt.Some? {
        var a := answerAt.value;
        assert FirstOf(lines, a, "Answer:");
        assert forall i :: 0 <= i < |lines| && FirstOf(lines, i, "Answer:") ==> i == a;
      }
    }
  }

  /** Exactly the blocks with at least three lines, a prompt left after the
      number, an "Options:" line and a first "Answer:" line with a non-empty
      answer are kept. */
  lemma KeptLines(lines: seq<string>)
    requires AreLines(lines)
    ensures ParseLines(lines).Some? <==>
      |lines| >= 3 && StripQuestionNumber(lines[0]) != [] &&
      (exists i :: 0 <= i < |lines| && IsOptionsLine(lines[i])) &&
      (exists i :: 0 <= i < |lines| && FirstOf(lines, i, "Answer:") && AnswerOf(lines[i]) != [])
  {
    if |lines| >= 3 {
      var optionsAt := FirstIndex(lines, IsOptionsLine);
      var answerAt := FirstIndex(lines, IsAnswerLine);
      if optionsAt.Some? {
        assert IsOptionsLine(lines[optionsAt.value]);
      }
      if answerAt.Some? {
        var a := answerAt.value;
        assert FirstOf(lines, a, "Answer:");
        assert forall i :: 0 <= i < |lines| && FirstOf(lines, i, "Answer:") ==> i == a;
      }
    }
  }

  /** The fields cut out of trimmed one-line lines have the readable shape. */
  lemma ReadableParts(line0: string, question: string, optionsLine: string, options: seq<string>,
                      answerLine: string, answer: string)
    requires IsTrimmed(line0) && '\n' !in line0 && IsTrimmed(answerLine) && '\n' !in answerLine
    requires '\n' !in optionsLine && IsOptionsLine(optionsLine) && IsAnswerLine(answerLine)
    requires question != [] && question == StripQuestionNumber(line0)
    requires options == OptionsOf(optionsLine)
    requires answer != [] && answer == AnswerOf(answerLine)
    ensures IsReadable(Question(question, options, answer))
  {
    StripKeepsOut(line0, '\n');
    OptionsReadable(optionsLine, options);
    var tail := answerLine[|"Answer:"|..];
    DropKeepsOut(answerLine, |"Answer:"|, '\n');
    TrimKeepsOut(tail, '\n');
    TrimKeepsOut(TrimStart(tail), '\n');
  }

  /** Stripping the question number adds no character. */
  lemma StripKeepsOut(line: string, c: char)
    requires c !in line
    ensures c !in StripQuestionNumber(line)
  {
    if |line| > 0 && line[0] == 'Q' {
      var k := DigitRun(line[1..]);
      if k > 0 && 1 + k < |line| && line[1 + k] == ':' {
        DropKeepsOut(line, 2 + k, c);
        TrimKeepsOut(line[2 + k..], c);
      }
    }
  }

  /** The options cut out of a one-line "Options:" line are trimmed, comma-free
      and on one line, and there is at least one of them. */
  lemma OptionsReadable(optionsLine: string, options: seq<string>)
    requires '\n' !in optionsLine && IsOptionsLine(optionsLine)
    requires options == OptionsOf(optionsLine)
    ensures |options| >= 1
    ensures forall i :: 0 <= i < |options| ==> IsTrimmed(options[i]) && ',' !in options[i] && '\n' !in options[i]
  {
    var tail := optionsLine[|"Options:"|..];
    DropKeepsOut(optionsLine, |"Options:"|, '\n');
    var rest := TrimStart(tail);
    TrimKeepsOut(tail, '\n');
    var pieces := Split(rest, ",");
    SplitDropsSeparator(rest, ',');
    SplitKeepsOut(rest, ",", '\n');
    forall i | 0 <= i < |options| ensures IsTrimmed(options[i]) && ',' !in options[i] && '\n' !in options[i] {
      assert options[i] == Trim(pieces[i]);
      TrimKeepsOut(pieces[i], ',');
      TrimKeepsOut(pieces[i], '\n');
    }
  }

  /** The questions of the blocks that are not blank: each block yields at
      most one question, the dropped blocks none, in block order. */
  function ParseBlocks(blocks: seq<string>): (qs: seq<Question>)
    ensures |qs| <= |blocks|
    ensures forall i :: 0 <= i < |qs| ==> IsReadable(qs[i])
  {
    if |blocks| == 0 then []
    else
      var first := if IsBlank(blocks[0]) then None else ParseBlock(blocks[0]);
      var head := if first.Some? then [first.value] else [];
      var rest := ParseBlocks(blocks[1..]);
      assert forall i :: 0 <= i < |head| ==> IsReadable(head[i]);
      head + rest
  }

  /** `parseFormattedQuestions`: a missing or blank payload has no questions;
      otherwise the payload is cut at every blank line ("\n\n") and each block
      is read on its own. */
  function ParseFormattedQuestions(text: Option<string>): (qs: seq<Question>)
    ensures text.None? || IsBlank(text.value) ==> qs == []
    ensures text.Some? ==> |qs| <= |Split(text.value, "\n\n")|
    ensures forall i :: 0 <= i < |qs| ==> IsReadable(qs[i])
  {
    if text.None? || Trim(text.value) == [] then []
    else ParseBlocks(Split(text.value, "\n\n"))
  }

  /** Blocks are read independently: the questions of a concatenation of block
      lists are the questions of the first list followed by those of the second. */
  lemma {:induction false} ParseBlocksAppend(a: seq<string>, b: seq<string>)
    ensures ParseBlocks(a + b) == ParseBlocks(a) + ParseBlocks(b)
  {
    if |a| == 0 {
      assert a + b == b;
    } else {
      assert (a + b)[1..] == a[1..] + b;
      ParseBlocksAppend(a[1..], b);
    }
  }

  /** A whitespace-only block contributes nothing, wherever it stands. */
  lemma BlankBlockSkipped(a: seq<string>, blank: string, b: seq<string>)
    requires IsBlank(blank)
    ensures ParseBlocks(a + [blank] + b) == ParseBlocks(a + b)
  {
    ParseBlocksAppend(a + [blank], b);
    ParseBlocksAppend(a, [blank]);
    ParseBlocksAppend(a, b);
    assert [blank][1..] == [];
  }

  // ---------------------------------------------------------------- writer

  function QuestionLine(number: nat, q: Question): (r: string)
    ensures NumberedAt(r, |NatToString(number)|)
    ensures r[|NatToString(number)| + 2..] == " " + q.questionText
  {
    "Q" + NatToString(number) + ": " + q.questionText
  }

  /** The number written on a question line denotes the question's number. */
  lemma QuestionLineNumber(number: nat, q: Question)
    ensures DigitsValue(QuestionLine(number, q)[1..|NatToString(number)| + 1]) == number
  {
    assert QuestionLine(number, q)[1..|NatToString(number)| + 1] == NatToString(number);
    NatToStringValue(number);
  }

  /** The options line: the label, then the options joined with a comma and
      a space; a missing list is written as the empty one. */
  function OptionsLine(q: Question): (r: string)
    ensures IsOptionsLine(r) && !IsAnswerLine(r)
  {
    var r := "Options: " + JoinWith(q.options, ", ");
    assert r[0] == 'O';
    r
  }

  function AnswerLine(q: Question): (r: string)
    ensures IsAnswerLine(r) && !IsOptionsLine(r)
  {
    var r := "Answer: " + q.correctAnswer;
    assert r[0] == 'A';
    r
  }

  /** The block the writer emits for the question numbered `number`. */
  function QuestionBlock(number: nat, q: Question): (r: string)
    ensures |r| > 0 && r[0] == 'Q'
  {
    QuestionLine(number, q) + "\n" + OptionsLine(q) + "\n" + AnswerLine(q)
  }

  function Blocks(qs: seq<Question>): (bs: seq<string>)
    ensures |bs| == |qs| && forall i :: 0 <= i < |qs| ==> bs[i] == QuestionBlock(i + 1, qs[i])
  {
    seq(|qs|, i requires 0 <= i < |qs| => QuestionBlock(i + 1, qs[i]))
  }

  /** The text the assessment form stores: the blocks, numbered from 1, joined
      by a blank line. */
  function Serialize(qs: seq<Question>): (r: string)
    ensures r == "" <==> qs == []
  {
    var bs := Blocks(qs);
    if |qs| > 0 then
      assert bs[0] == QuestionBlock(1, qs[0]);
      JoinWith(bs, "\n\n")
    else JoinWith(bs, "\n\n")
  }

  // ------------------------------------------------------------ round trip

  /** The empty question list is written as the empty text, which reads back
      as no questions. */
  lemma EmptyRoundTrip()
    ensures Serialize([]) == ""
    ensures ParseFormattedQuestions(Some(Serialize([]))) == []
  {
  }

  /** Joining comma-free pieces with ", " (behind blank padding) and cutting at
      every comma gives the pieces back once each is trimmed. */
  lemma {:induction false} OptionsRoundTrip(pad: string, options: seq<string>)
    requires IsBlank(pad) && ',' !in pad
    requires |options| >= 1
    requires forall i :: 0 <= i < |options| ==> IsTrimmed(options[i]) && ',' !in options[i]
    ensures TrimAll(Split(pad + JoinWith(options, ", "), ",")) == options
    decreases |options|
  {
    if |options| == 1 {
      var first := pad + options[0];
      LacksFirstUnseparated(first, ",");
      SplitUnseparatedLast(first, ",");
      TrimBlankPrefix(pad, options[0]);
      assert TrimAll([first]) == [Trim(first)];
    } else {
      OptionsRoundTrip(" ", options[1..]);
      OptionsStep(pad, options);
    }
  }

  /** The first option is cut off at the first comma; the rest is read as a
      shorter options list behind one space of padding. */
  lemma OptionsStep(pad: string, options: seq<string>)
    requires IsBlank(pad) && ',' !in pad
    requires |options| >= 2
    requires IsTrimmed(options[0]) && ',' !in options[0]
    requires TrimAll(Split(" " + JoinWith(options[1..], ", "), ",")) == options[1..]
    ensures TrimAll(Split(pad + JoinWith(options, ", "), ",")) == options
  {
    var first := pad + options[0];
    var tail := JoinWith(options[1..], ", ");
    var rest := Split(" " + tail, ",");
    LacksFirstUnseparated(first, ",");
    JoinCons(pad, options);
    SplitUnseparated(first, ",", " " + tail);
    assert Split(pad + JoinWith(options, ", "), ",") == [first] + rest;
    TrimBlankPrefix(pad, options[0]);
    TrimAllCons(first, rest);
    assert TrimAll([first] + rest) == [options[0]] + options[1..];
    assert [options[0]] + options[1..] == options;
  }

  /** One step of joining the options with a comma and a space, regrouped around the comma. */
  lemma JoinCons(pad: string, options: seq<string>)
    requires |options| >= 2
    ensures pad + JoinWith(options, ", ") == (pad + options[0]) + "," + (" " + JoinWith(options[1..], ", "))
  {
    var tail := JoinWith(options[1..], ", ");
    assert JoinWith(options, ", ") == options[0] + ", " + tail;
    RegroupComma(pad, options[0], tail);
  }

  lemma RegroupComma(a: string, b: string, t: string)
    ensures a + (b + ", " + t) == (a + b) + "," + (" " + t)
  {
    assert ", " + t == "," + (" " + t);
  }

  lemma TrimAllCons(x: string, xs: seq<string>)
    ensures TrimAll([x] + xs) == [Trim(x)] + TrimAll(xs)
  {
    assert TrimAll([x] + xs)[1..] == TrimAll(xs);
  }

  /** The options line ends where its last option ends. */
  lemma {:induction false} JoinEnds(options: seq<string>, sep: string)
    requires |options| >= 1 && options[|options| - 1] != []
    ensures var j := JoinWith(options, sep);
      |j| >= |options[|options| - 1]| && j[|j| - 1] == options[|options| - 1][|options[|options| - 1]| - 1]
  {
    if |options| > 1 {
      JoinEnds(options[1..], sep);
    }
  }

  /** ... and starts where its first option starts. */
  lemma JoinStarts(options: seq<string>, sep: string)
    requires |options| >= 1 && options[0] != []
    ensures var j := JoinWith(options, sep); |j| > 0 && j[0] == options[0][0]
  {
    if |options| > 1 {
      assert JoinWith(options, sep) == options[0] + (sep + JoinWith(options[1..], sep));
    }
  }

  /** Joining one-line options keeps the result on one line. */
  lemma {:induction false} OptionsLackBreak(options: seq<string>)
    requires forall i :: 0 <= i < |options| ==> '\n' !in options[i]
    ensures '\n' !in JoinWith(options, ", ")
  {
    if |options| > 1 {
      OptionsLackBreak(options[1..]);
    }
  }

  /** The three lines the writer emits for a writable question are trimmed,
      non-empty and on one line. */
  lemma WrittenLines(number: nat, q: Question)
    requires IsWritable(q)
    ensures var l0, l1, l2 := QuestionLine(number, q), OptionsLine(q), AnswerLine(q);
      && l0 != [] && l1 != [] && l2 != []
      && IsTrimmed(l0) && IsTrimmed(l1) && IsTrimmed(l2)
      && '\n' !in l0 && '\n' !in l1 && '\n' !in l2
  {
    var digits := NatToString(number);
    assert '\n' !in digits by {
      forall i | 0 <= i < |digits| ensures digits[i] != '\n' {
        assert IsDigit(digits[i]);
      }
    }
    OptionsLackBreak(q.options);
    JoinEnds(q.options, ", ");
  }

  /** A block of three one-line lines, the last two not empty, has no blank
      line in it. */
  lemma ThreeLinesUnseparated(l0: string, l1: string, l2: string)
    requires '\n' !in l0 && '\n' !in l1 && '\n' !in l2 && l1 != [] && l2 != []
    ensures Unseparated(l0 + "\n" + l1 + "\n" + l2, "\n\n")
  {
    var b := l0 + "\n" + l1 + "\n" + l2;
    forall i | 0 <= i < |b| ensures b[i] == '\n' ==> i + 1 < |b| && b[i + 1] != '\n' {
      if i < |l0| {
        assert b[i] == l0[i];
      } else if i == |l0| {
        assert b[i + 1] == l1[0];
      } else if i < |l0| + 1 + |l1| {
        assert b[i] == l1[i - |l0| - 1];
      } else if i == |l0| + 1 + |l1| {
        assert b[i + 1] == l2[0];
      } else {
        assert b[i] == l2[i - |l0| - |l1| - 2];
      }
    }
    SingleBreaksUnseparated(b);
  }

  /** Three one-line strings joined by line breaks split back into themselves. */
  lemma SplitThreeLines(l0: string, l1: string, l2: string)
    requires '\n' !in l0 && '\n' !in l1 && '\n' !in l2
    ensures Split(l0 + "\n" + l1 + "\n" + l2, "\n") == [l0, l1, l2]
  {
    LacksFirstUnseparated(l0, "\n");
    LacksFirstUnseparated(l1, "\n");
    LacksFirstUnseparated(l2, "\n");
    assert l0 + "\n" + l1 + "\n" + l2 == l0 + "\n" + (l1 + "\n" + l2);
    SplitUnseparated(l0, "\n", l1 + "\n" + l2);
    SplitUnseparated(l1, "\n", l2);
    SplitUnseparatedLast(l2, "\n");
  }

  lemma {:induction false} TrimAllTrimmed(xs: seq<string>)
    requires forall i :: 0 <= i < |xs| ==> IsTrimmed(xs[i])
    ensures TrimAll(xs) == xs
  {
    forall i | 0 <= i < |xs| ensures TrimAll(xs)[i] == xs[i] {
      TrimTrimmed(xs[i]);
    }
  }

  /** The three lines of a written block survive splitting, trimming and the
      empty-line filter unchanged. */
  lemma BlockLinesOfWritten(number: nat, q: Question)
    requires IsWritable(q)
    ensures BlockLines(QuestionBlock(number, q)) == [QuestionLine(number, q), OptionsLine(q), AnswerLine(q)]
  {
    var l0, l1, l2 := QuestionLine(number, q), OptionsLine(q), AnswerLine(q);
    WrittenLines(number, q);
    SplitThreeLines(l0, l1, l2);
    TrimAllTrimmed([l0, l1, l2]);
    FilterAll([l0, l1, l2], (l: string) => l != []);
  }

  /** The question number and the following space are stripped off again. */
  lemma StripWrittenNumber(number: nat, q: Question)
    requires IsWritable(q)
    ensures StripQuestionNumber(QuestionLine(number, q)) == q.questionText
  {
    var line := QuestionLine(number, q);
    var digits := NatToString(number);
    assert line[1..] == digits + (": " + q.questionText);
    DigitRunPrefix(digits, ": " + q.questionText);
    assert line[2 + |digits|..] == " " + q.questionText;
    TrimStartBlankPrefix(" ", q.questionText);
  }

  /** The options of a written options line are read back. */
  lemma ReadWrittenOptions(q: Question)
    requires IsWritable(q)
    ensures OptionsOf(OptionsLine(q)) == q.options
  {
    var j := JoinWith(q.options, ", ");
    assert OptionsLine(q)[|"Options:"|..] == " " + j;
    TrimStartBlankPrefix(" ", j);
    JoinStarts(q.options, ", ");
    OptionsRoundTrip("", q.options);
    assert "" + j == j;
  }

  /** The answer of a written answer line is read back. */
  lemma ReadWrittenAnswer(q: Question)
    requires IsWritable(q)
    ensures AnswerOf(AnswerLine(q)) == q.correctAnswer
  {
    assert AnswerLine(q)[|"Answer:"|..] == " " + q.correctAnswer;
    TrimStartBlankPrefix(" ", q.correctAnswer);
    TrimTrimmed(q.correctAnswer);
  }

  /** The three written lines start with "Q", "Options:" and "Answer:". */
  lemma WrittenLineKinds(number: nat, q: Question)
    ensures var l0, l1, l2 := QuestionLine(number, q), OptionsLine(q), AnswerLine(q);
      && !IsOptionsLine(l0) && !IsAnswerLine(l0)
      && IsOptionsLine(l1) && !IsAnswerLine(l1) && IsAnswerLine(l2)
  {
    var l0, l1 := QuestionLine(number, q), OptionsLine(q);
    assert l0[0] == 'Q';
    assert l1[0] == 'O';
  }

  /** Three lines of the right kinds whose fields read back as those of `q`
      are read as `q`. */
  lemma ParseThreeLines(l0: string, l1: string, l2: string, q: Question)
    requires AreLines([l0, l1, l2])
    requires !IsOptionsLine(l0) && !IsAnswerLine(l0) && IsOptionsLine(l1) && !IsAnswerLine(l1) && IsAnswerLine(l2)
    requires q.questionText != [] && StripQuestionNumber(l0) == q.questionText
    requires OptionsOf(l1) == q.options
    requires q.correctAnswer != [] && AnswerOf(l2) == q.correctAnswer
    ensures ParseLines([l0, l1, l2]) == Some(q)
  {
    var lines := [l0, l1, l2];
    assert lines[0] == l0 && lines[1] == l1 && lines[2] == l2;
    var o := FirstIndex(lines, IsOptionsLine);
    assert o == Some(1);
    var a := FirstIndex(lines, IsAnswerLine);
    assert a.Some?;
    assert a.value != 0 && a.value != 1;
  }

  /** Each written block reads back as the question it was written from. */
  lemma BlockRoundTrip(number: nat, q: Question)
    requires IsWritable(q)
    ensures ParseBlock(QuestionBlock(number, q)) == Some(q)
  {
    var l0, l1, l2 := QuestionLine(number, q), OptionsLine(q), AnswerLine(q);
    BlockLinesOfWritten(number, q);
    WrittenLines(number, q);
    WrittenLineKinds(number, q);
    StripWrittenNumber(number, q);
    ReadWrittenOptions(q);
    ReadWrittenAnswer(q);
    ParseThreeLines(l0, l1, l2, q);
  }

  /** A written block has no blank line inside, is not blank, and reads back. */
  lemma WrittenBlock(number: nat, q: Question)
    requires IsWritable(q)
    ensures var b := QuestionBlock(number, q);
      Unseparated(b, "\n\n") && b != [] && b[0] == 'Q' && !IsBlank(b) && ParseBlock(b) == Some(q)
  {
    WrittenLines(number, q);
    ThreeLinesUnseparated(QuestionLine(number, q), OptionsLine(q), AnswerLine(q));
    BlockRoundTrip(number, q);
  }

  /** Reading blocks that each stand for one question gives those questions. */
  lemma {:induction false} ParseWrittenBlocks(bs: seq<string>, qs: seq<Question>)
    requires |bs| == |qs|
    requires forall i :: 0 <= i < |bs| ==> !IsBlank(bs[i]) && ParseBlock(bs[i]) == Some(qs[i])
    ensures ParseBlocks(bs) == qs
  {
    if |bs| > 0 {
      ParseWrittenBlocks(bs[1..], qs[1..]);
      assert [qs[0]] + qs[1..] == qs;
    }
  }

  /** Every block written for a list of writable questions stands alone and
      reads back as its question. */
  lemma WrittenBlocks(qs: seq<Question>)
    requires forall i :: 0 <= i < |qs| ==> IsWritable(qs[i])
    ensures forall i :: 0 <= i < |qs| ==>
      Unseparated(Blocks(qs)[i], "\n\n") && !IsBlank(Blocks(qs)[i]) && ParseBlock(Blocks(qs)[i]) == Some(qs[i])
  {
    forall i | 0 <= i < |qs|
      ensures Unseparated(Blocks(qs)[i], "\n\n") && !IsBlank(Blocks(qs)[i]) && ParseBlock(Blocks(qs)[i]) == Some(qs[i])
    {
      WrittenBlock(i + 1, qs[i]);
    }
  }

  /** The text written for at least one question starts with "Q", so it is
      not blank. */
  lemma SerializedNotBlank(qs: seq<Question>)
    requires |qs| >= 1
    ensures |Serialize(qs)| > 0 && Serialize(qs)[0] == 'Q' && !IsBlank(Serialize(qs))
  {
    var bs := Blocks(qs);
    assert bs[0] == QuestionBlock(1, qs[0]);
    assert bs[0][0] == 'Q';
    JoinStarts(bs, "\n\n");
    var text := Serialize(qs);
    assert text[0] == 'Q';
    assert !IsSpace(text[0]);
  }

  /** The writer and the reader agree: every list of writable questions is read
      back exactly, in order, from the text the assessment form stores. Nothing
      ties an answer to the options, so this holds whether or not the answer is
      one of them. */
  lemma RoundTrip(qs: seq<Question>)
    requires forall i :: 0 <= i < |qs| ==> IsWritable(qs[i])
    ensures ParseFormattedQuestions(Some(Serialize(qs))) == qs
  {
    if |qs| > 0 {
      var bs := Blocks(qs);
      WrittenBlocks(qs);
      SplitJoin(bs, "\n\n");
      SerializedNotBlank(qs);
      ParseWrittenBlocks(bs, qs);
    }
  }

  // ------------------------------------------------------------------ JSON

  /** What `JSON.parse` made of a questions text: it threw, it gave an array
      (of questions), or it gave some other value. */
  datatype JsonOutcome = JsonSyntaxError | JsonArray(items: seq<Question>) | JsonNonArray

  /** JSON whitespace. */
  predicate IsJsonSpace(c: char)
  {
    c == ' ' || c == '\t' || c == '\n' || c == '\r'
  }

  /** A JSON text starts, after JSON whitespace, with the first character of a
      value. Whatever `JSON.parse` accepts has this shape; it is all the model
      assumes about the parser. */
  predicate StartsLikeJson(text: string)
  {
    exists i :: 0 <= i < |text| && (forall j :: 0 <= j < i ==> IsJsonSpace(text[j])) &&
      text[i] in "{[\"-0123456789tfn"
  }
}

=== FILE: results_page.dfy ===
/** The instructor's results page, src/pages/ResultsPage.jsx: the instructor
    picks one of the assessments of their own courses and sees the results
    recorded for it, one numbered row per result with the student's name and
    email. */
module ResultsPage {
  import opened Base
  import opened Api

  /** Ids of the courses taught by `instructorId`. */
  function InstructorCourseIds(courses: seq<Course>, instructorId: Option<string>): (ids: seq<string>)
    ensures forall id :: id in ids <==> exists c :: c in courses && c.instructorId == instructorId && c.courseId == id
  {
    var mine := InstructorCourses(courses, instructorId);
    var ids := Map(mine, (c: Course) => c.courseId);
    forall c | c in courses && c.instructorId == instructorId ensures c.courseId in ids {
      assert c in mine;
      var i :| 0 <= i < |mine| && mine[i] == c;
      assert ids[i] == c.courseId;
    }
    forall id | id in ids ensures exists c :: c in courses && c.instructorId == instructorId && c.courseId == id {
      var i :| 0 <= i < |ids| && ids[i] == id;
      assert mine[i] in mine;
    }
    ids
  }

  /** The assessments offered in the select box: those whose course belongs
      to the instructor, in the order the API returned them. */
  function InstructorAssessments(courses: seq<Course>, assessments: seq<Assessment>,
                                 instructorId: Option<string>): (r: seq<Assessment>)
    ensures forall a :: a in r <==>
      a in assessments && exists c :: c in courses && c.instructorId == instructorId && c.courseId == a.courseId
    ensures IsSubsequence(r, assessments)
    ensures forall a :: (multiset(r)[a] ==
                         if exists c :: c in courses && c.instructorId == instructorId && c.courseId == a.courseId
                         then multiset(assessments)[a] else 0)
  {
    var ids := InstructorCourseIds(courses, instructorId);
    Filter(assessments, (a: Assessment) => a.courseId in ids)
  }

  /** `fetchResults`: the results of one assessment, in the order the API returned them. */
  function ResultsFor(results: seq<AttemptResult>, assessmentId: string): (r: seq<AttemptResult>)
    ensures forall x :: x in r <==> x in results && x.assessmentId == assessmentId
    ensures IsSubsequence(r, results)
  {
    Filter(results, (x: AttemptResult) => x.assessmentId == assessmentId)
  }

  /** Results of different assessments never share a row: the results of one
      assessment and those of the rest together make up all the results. */
  lemma ResultsForPartition(results: seq<AttemptResult>, assessmentId: string)
    ensures |ResultsFor(results, assessmentId)| + |Filter(results, (x: AttemptResult) => x.assessmentId != assessmentId)| == |results|
  {
    FilterSplit(results, (x: AttemptResult) => x.assessmentId == assessmentId,
                (x: AttemptResult) => x.assessmentId != assessmentId);
  }

  lemma {:induction false} FilterSplit<T(!new)>(s: seq<T>, p: T -> bool, q: T -> bool)
    requires forall x :: p(x) != q(x)
    ensures |Filter(s, p)| + |Filter(s, q)| == |s|
  {
    if |s| > 0 {
      FilterSplit(s[1..], p, q);
    }
  }

  /** A row of the results table; `date` is the raw attempt date ("N/A" when missing). */
  datatype ResultRow = ResultRow(number: nat, studentName: string, email: string, score: int, date: string)

  /** The first user with the result's user id, as `students.find` picks it. */
  function StudentOf(students: seq<User>, userId: string): (r: Option<User>)
    ensures r.Some? ==> r.value in students && r.value.userId == userId
    ensures r.None? <==> forall s :: s in students ==> s.userId != userId
    ensures r.Some? ==> exists i :: (0 <= i < |students| && students[i] == r.value &&
                                     forall k :: 0 <= k < i ==> students[k].userId != userId)
  {
    match FirstIndex(students, (s: User) => s.userId == userId)
    case None => None
    case Some(i) => Some(students[i])
  }

  /** Row `i` of the table: numbered from 1, with 'Unknown' for a missing or
      nameless student and 'N/A' for a missing email or date. */
  function Row(students: seq<User>, r: AttemptResult, i: nat): (row: ResultRow)
    ensures row.number == i + 1 && row.score == r.score
    ensures row.studentName != "" && row.email != "" && row.date != ""
    ensures StudentOf(students, r.userId).None? ==> row.studentName == "Unknown" && row.email == "N/A"
    ensures StudentOf(students, r.userId).Some? && StudentOf(students, r.userId).value.fullName != "" ==>
      row.studentName == StudentOf(students, r.userId).value.fullName
    ensures StudentOf(students, r.userId).Some? && StudentOf(students, r.userId).value.email != "" ==>
      row.email == StudentOf(students, r.userId).value.email
    ensures StudentOf(students, r.userId).Some? && StudentOf(students, r.userId).value.fullName == "" ==>
      row.studentName == "Unknown"
    ensures StudentOf(students, r.userId).Some? && StudentOf(students, r.userId).value.email == "" ==>
      row.email == "N/A"
    ensures r.attemptDate != "" ==> row.date == r.attemptDate
    ensures r.attemptDate == "" ==> row.date == "N/A"
  {
    var student := StudentOf(students, r.userId);
    var name := if student.Some? && student.value.fullName != "" then student.value.fullName else "Unknown";
    var email := if student.Some? && student.value.email != "" then student.value.email else "N/A";
    var date := if r.attemptDate != "" then r.attemptDate else "N/A";
    ResultRow(i + 1, name, email, r.score, date)
  }

  /** The table: one row per result, numbered 1..k in result order. */
  function Rows(results: seq<AttemptResult>, students: seq<User>): (rows: seq<ResultRow>)
    ensures |rows| == |results|
    ensures forall i :: 0 <= i < |rows| ==> rows[i] == Row(students, results[i], i)
  {
    seq(|results|, i requires 0 <= i < |results| => Row(students, results[i], i))
  }

  /** The page's state. */
  class ResultsView {
    var assessments: seq<Assessment>
    var results: seq<AttemptResult>
    var students: seq<User>
    var selectedAssessmentId: string
    var loading: bool
    /** localStorage 'userId' at render time. */
    const instructorId: Option<string>

    constructor (instructorId: Option<string>)
      ensures this.instructorId == instructorId
      ensures assessments == [] && results == [] && students == [] && selectedAssessmentId == "" && !loading
    {
      this.instructorId := instructorId;
      assessments := [];
      results := [];
      students := [];
      selectedAssessmentId := "";
      loading := false;
    }

    /** `fetchAssessments`: the courses and the assessments, both fetched, or
        None when either request fails (then nothing changes). */
    method FetchAssessments(response: Option<(seq<Course>, seq<Assessment>)>)
      modifies this
      ensures response.Some? ==> assessments == InstructorAssessments(response.value.0, response.value.1, instructorId)
      ensures response.None? ==> assessments == old(assessments)
      ensures results == old(results) && students == old(students)
      ensures selectedAssessmentId == old(selectedAssessmentId) && loading == old(loading)
    {
      if response.Some? {
        assessments := InstructorAssessments(response.value.0, response.value.1, instructorId);
      }
    }

    /** `fetchStudents`: a failed GET (None) leaves the list as it was. */
    method FetchStudents(response: Option<seq<User>>)
      modifies this
      ensures response.Some? ==> students == response.value
      ensures response.None? ==> students == old(students)
      ensures assessments == old(assessments) && results == old(results)
      ensures selectedAssessmentId == old(selectedAssessmentId) && loading == old(loading)
    {
      if response.Some? {
        students := response.value;
      }
    }

    /** `handleAssessmentChange` with `fetchResults`. `response` is the answer
        to GET /Results, should it be sent (None when it fails). Returns
        whether it was sent. */
    method ChangeAssessment(id: string, response: Option<seq<AttemptResult>>) returns (fetched: bool)
      modifies this
      ensures selectedAssessmentId == id
      ensures fetched <==> id != ""
      ensures id == "" ==> results == [] && loading == old(loading)
      ensures id != "" && response.Some? ==> results == ResultsFor(response.value, id)
      ensures id != "" && response.None? ==> results == old(results)
      ensures id != "" ==> !loading
      ensures assessments == old(assessments) && students == old(students)
    {
      selectedAssessmentId := id;
      if id == "" {
        results := [];
        fetched := false;
        return;
      }
      fetched := true;
      loading := true;
      if response.Some? {
        results := ResultsFor(response.value, id);
      }
      loading := false;
    }
  }
}

=== FILE: students_list.dfy ===
/** The instructor's student results list, src/pages/StudentsListPage.jsx:
    courses, assessments, results and users are joined through
    `Object.fromEntries` maps into one numbered row per result of the
    instructor's assessments, which a select box can narrow to one assessment. */
module StudentsList {
  import opened Base
  import opened Api

  /** The entry a course gives `courseMap`: its id, mapped to its title. */
  function CourseKey(c: Course): string { c.courseId }
  function CourseValue(c: Course): string { c.title }

  /** The keys of `m` are exactly the ids of the instructor's courses. */
  ghost predicate KeysAreCourseIds(courses: seq<Course>, instructorId: Option<string>, m: map<string, string>)
  {
    forall id :: id in m <==> exists c :: c in courses && c.instructorId == instructorId && c.courseId == id
  }

  /** Each title in `m` is the title of one of the instructor's courses with that id. */
  ghost predicate TitlesFromCourses(courses: seq<Course>, instructorId: Option<string>, m: map<string, string>)
  {
    forall id :: id in m ==>
      exists c :: c in courses && c.instructorId == instructorId && c.courseId == id && c.title == m[id]
  }

  /** Each title in `m` is the title of the last course of `mine` with that id. */
  ghost predicate LastTitleWins(mine: seq<Course>, m: map<string, string>)
  {
    forall id :: id in m ==>
      exists i :: (0 <= i < |mine| && mine[i].courseId == id && m[id] == mine[i].title &&
                   forall j :: i < j < |mine| ==> mine[j].courseId != id)
  }

  /** `courseMap`: course id to title over the instructor's courses; when two
      of them share an id, the later one's title is kept. */
  function CourseMap(courses: seq<Course>, instructorId: Option<string>): (m: map<string, string>)
    ensures KeysAreCourseIds(courses, instructorId, m)
    ensures LastTitleWins(InstructorCourses(courses, instructorId), m)
    ensures TitlesFromCourses(courses, instructorId, m)
  {
    CourseMapKeys(courses, instructorId);
    CourseMapLast(courses, instructorId);
    FromEntriesBy(InstructorCourses(courses, instructorId), CourseKey, CourseValue)
  }

  /** The keys of `courseMap` are the instructor's course ids, and each title
      is the title of an instructor course with that id. */
  lemma CourseMapKeys(courses: seq<Course>, instructorId: Option<string>)
    ensures var m := FromEntriesBy(InstructorCourses(courses, instructorId), CourseKey, CourseValue);
      KeysAreCourseIds(courses, instructorId, m) && TitlesFromCourses(courses, instructorId, m)
  {
    var mine := InstructorCourses(courses, instructorId);
    var m := FromEntriesBy(mine, CourseKey, CourseValue);
    FromEntriesByMembers(mine, CourseKey, CourseValue, m);
    CourseEntries(courses, instructorId, mine, m);
  }

  /** A map built from the entries of the instructor's courses `mine` has
      their ids as keys and their titles as values. */
  lemma CourseEntries(courses: seq<Course>, instructorId: Option<string>, mine: seq<Course>, m: map<string, string>)
    requires forall c :: c in mine <==> c in courses && c.instructorId == instructorId
    requires forall id :: id in m <==> exists c :: c in mine && CourseKey(c) == id
    requires forall id :: id in m ==> exists c :: c in mine && CourseKey(c) == id && m[id] == CourseValue(c)
    ensures KeysAreCourseIds(courses, instructorId, m) && TitlesFromCourses(courses, instructorId, m)
  {
    forall id | id in m
      ensures exists c :: c in courses && c.instructorId == instructorId && c.courseId == id && c.title == m[id]
    {
      var c :| c in mine && CourseKey(c) == id && m[id] == CourseValue(c);
    }
    forall c | c in courses && c.instructorId == instructorId ensures c.courseId in m {
      assert c in mine && CourseKey(c) == c.courseId;
    }
  }

  /** On a duplicate id, `courseMap` keeps the title of the last such course. */
  lemma CourseMapLast(courses: seq<Course>, instructorId: Option<string>)
    ensures var mine := InstructorCourses(courses, instructorId);
      LastTitleWins(mine, FromEntriesBy(mine, CourseKey, CourseValue))
  {
    var mine := InstructorCourses(courses, instructorId);
    var m := FromEntriesBy(mine, CourseKey, CourseValue);
    forall id | id in m
      ensures exists i :: (0 <= i < |mine| && mine[i].courseId == id && m[id] == mine[i].title &&
                           forall j :: i < j < |mine| ==> mine[j].courseId != id)
    {
      var i :| 0 <= i < |mine| && CourseKey(mine[i]) == id && m[id] == CourseValue(mine[i]) &&
               forall j :: i < j < |mine| ==> CourseKey(mine[j]) != id;
      assert forall j :: i < j < |mine| ==> mine[j].courseId == CourseKey(mine[j]);
    }
  }

  /** The course map has a usable title for `id`: the id is a key and its title is not empty. */
  predicate HasTitle(m: map<string, string>, id: string)
  {
    id in m && m[id] != ""
  }

  /** The assessments the page lists: those whose course maps to a non-empty
      title, in API order. An instructor course with an empty title drops its
      assessments. */
  function KeptAssessments(assessments: seq<Assessment>, courseMap: map<string, string>): (r: seq<Assessment>)
    ensures forall a :: a in r <==> a in assessments && HasTitle(courseMap, a.courseId)
    ensures IsSubsequence(r, assessments)
    ensures forall a :: multiset(r)[a] == if HasTitle(courseMap, a.courseId) then multiset(assessments)[a] else 0
  {
    Filter(assessments, (a: Assessment) => HasTitle(courseMap, a.courseId))
  }

  /** `assessmentMap`: assessment id to the title of its course; later entries win. */
  function AssessmentMap(kept: seq<Assessment>, courseMap: map<string, string>): (m: map<string, string>)
    ensures KeysAreAssessmentIds(kept, m)
    ensures (forall a :: a in kept ==> HasTitle(courseMap, a.courseId)) ==> TitlesFromAssessments(kept, courseMap, m)
    ensures LastAssessmentWins(kept, courseMap, m)
  {
    AssessmentMapFacts(kept, courseMap);
    AssessmentMapLast(kept, courseMap);
    FromEntriesBy(kept, AssessmentKey, AssessmentValue(courseMap))
  }

  /** The entry an assessment gives `assessmentMap`: its id, mapped to the
      title of its course ("" when the course map has none). */
  function AssessmentKey(a: Assessment): string { a.assessmentId }
  function AssessmentValue(courseMap: map<string, string>): Assessment -> string
  {
    (a: Assessment) => if a.courseId in courseMap then courseMap[a.courseId] else ""
  }

  /** The keys of `m` are exactly the ids of the assessments `kept`. */
  ghost predicate KeysAreAssessmentIds(kept: seq<Assessment>, m: map<string, string>)
  {
    forall id :: id in m <==> exists a :: a in kept && a.assessmentId == id
  }

  /** Each value in `m` is the non-empty course title of an assessment of `kept` with that id. */
  ghost predicate TitlesFromAssessments(kept: seq<Assessment>, courseMap: map<string, string>, m: map<string, string>)
  {
    forall id :: id in m ==>
      exists a :: a in kept && a.assessmentId == id && a.courseId in courseMap && m[id] == courseMap[a.courseId] && m[id] != ""
  }

  /** Each value in `m` is the course title (or "" without one) of the last
      assessment of `kept` with that id. */
  ghost predicate LastAssessmentWins(kept: seq<Assessment>, courseMap: map<string, string>, m: map<string, string>)
  {
    forall id :: id in m ==>
      exists i :: (0 <= i < |kept| && kept[i].assessmentId == id &&
                   m[id] == (if kept[i].courseId in courseMap then courseMap[kept[i].courseId] else "") &&
                   forall j :: i < j < |kept| ==> kept[j].assessmentId != id)
  }

  /** On a duplicate assessment id, `assessmentMap` keeps the title of the last such assessment. */
  lemma AssessmentMapLast(kept: seq<Assessment>, courseMap: map<string, string>)
    ensures LastAssessmentWins(kept, courseMap, FromEntriesBy(kept, AssessmentKey, AssessmentValue(courseMap)))
  {
    var m := FromEntriesBy(kept, AssessmentKey, AssessmentValue(courseMap));
    forall id | id in m
      ensures exists i :: (0 <= i < |kept| && kept[i].assessmentId == id &&
                           m[id] == (if kept[i].courseId in courseMap then courseMap[kept[i].courseId] else "") &&
                           forall j :: i < j < |kept| ==> kept[j].assessmentId != id)
    {
      var i :| 0 <= i < |kept| && AssessmentKey(kept[i]) == id && m[id] == AssessmentValue(courseMap)(kept[i]) &&
               forall j :: i < j < |kept| ==> AssessmentKey(kept[j]) != id;
      assert forall j :: i < j < |kept| ==> kept[j].assessmentId == AssessmentKey(kept[j]);
    }
  }

  /** The facts of `AssessmentMap`, from those of `FromEntriesBy`. */
  lemma AssessmentMapFacts(kept: seq<Assessment>, courseMap: map<string, string>)
    ensures var m := FromEntriesBy(kept, AssessmentKey, AssessmentValue(courseMap));
      && KeysAreAssessmentIds(kept, m)
      && ((forall a :: a in kept ==> HasTitle(courseMap, a.courseId)) ==> TitlesFromAssessments(kept, courseMap, m))
  {
    var m := FromEntriesBy(kept, AssessmentKey, AssessmentValue(courseMap));
    FromEntriesByMembers(kept, AssessmentKey, AssessmentValue(courseMap), m);
    AssessmentEntries(kept, courseMap, m);
  }

  /** A map built from the entries of the assessments `kept` has their ids as
      keys, and, when every one of them has a course title, those titles as
      values. */
  lemma AssessmentEntries(kept: seq<Assessment>, courseMap: map<string, string>, m: map<string, string>)
    requires forall id :: id in m <==> exists a :: a in kept && AssessmentKey(a) == id
    requires forall id :: id in m ==>
      exists a :: a in kept && AssessmentKey(a) == id && m[id] == AssessmentValue(courseMap)(a)
    ensures KeysAreAssessmentIds(kept, m)
    ensures (forall a :: a in kept ==> HasTitle(courseMap, a.courseId)) ==> TitlesFromAssessments(kept, courseMap, m)
  {
    forall id | id in m && (forall a :: a in kept ==> HasTitle(courseMap, a.courseId))
      ensures exists a :: a in kept && a.assessmentId == id && a.courseId in courseMap &&
                          m[id] == courseMap[a.courseId] && m[id] != ""
    {
      var a :| a in kept && AssessmentKey(a) == id && m[id] == AssessmentValue(courseMap)(a);
      assert HasTitle(courseMap, a.courseId);
    }
    forall a | a in kept ensures a.assessmentId in m {
      assert AssessmentKey(a) == a.assessmentId;
    }
  }

  /** The name shown for a user: the full name, else the short name, else
      "Unknown" when both are empty. */
  function DisplayName(u: User): (r: string)
    ensures r != ""
    ensures u.fullName != "" ==> r == u.fullName
    ensures u.fullName == "" && u.name != "" ==> r == u.name
    ensures u.fullName == "" && u.name == "" ==> r == "Unknown"
  {
    if u.fullName != "" then u.fullName else if u.name != "" then u.name else "Unknown"
  }

  /** `usersMap`: user id to display name; later entries win. */
  function UsersMap(users: seq<User>): (m: map<string, string>)
    ensures forall id :: id in m <==> exists u :: u in users && u.userId == id
    ensures forall id :: id in m ==> m[id] != ""
    ensures forall id :: id in m ==>
      exists i :: (0 <= i < |users| && users[i].userId == id && m[id] == DisplayName(users[i]) &&
                   forall j :: i < j < |users| ==> users[j].userId != id)
  {
    var m := FromEntriesBy(users, (u: User) => u.userId, DisplayName);
    FromEntriesByMembers(users, (u: User) => u.userId, DisplayName, m);
    m
  }

  /** A row of the table. `student` is None where the page has `undefined`;
      `date` is the raw attempt date (its locale formatting is left out). */
  datatype StudentRow = StudentRow(id: nat, student: Option<string>, course: string, assessmentId: string,
                                   score: int, date: string)

  /** The results that get a row: those whose assessment maps to a course title. */
  function ShownResults(results: seq<AttemptResult>, assessmentMap: map<string, string>): (r: seq<AttemptResult>)
    ensures forall x :: x in r <==> x in results && HasTitle(assessmentMap, x.assessmentId)
    ensures IsSubsequence(r, results)
    ensures forall x :: multiset(r)[x] == if HasTitle(assessmentMap, x.assessmentId) then multiset(results)[x] else 0
  {
    Filter(results, (x: AttemptResult) => HasTitle(assessmentMap, x.assessmentId))
  }

  /** The numbered rows: one per shown result, in result order, numbered 1..k. */
  function Rows(results: seq<AttemptResult>, assessmentMap: map<string, string>, usersMap: map<string, string>)
    : (rows: seq<StudentRow>)
    ensures var shown := ShownResults(results, assessmentMap);
      && |rows| == |shown|
      && forall i :: 0 <= i < |rows| ==>
        && rows[i].id == i + 1
        && rows[i].assessmentId == shown[i].assessmentId && rows[i].score == shown[i].score
        && HasTitle(assessmentMap, rows[i].assessmentId) && rows[i].course == assessmentMap[rows[i].assessmentId]
        && rows[i].student == Lookup(usersMap, shown[i].userId)
        && rows[i].date == shown[i].attemptDate
  {
    var shown := ShownResults(results, assessmentMap);
    forall i | 0 <= i < |shown| ensures HasTitle(assessmentMap, shown[i].assessmentId) {
      assert shown[i] in shown;
    }
    seq(|shown|, i requires 0 <= i < |shown| =>
      StudentRow(i + 1, Lookup(usersMap, shown[i].userId), assessmentMap[shown[i].assessmentId],
                 shown[i].assessmentId, shown[i].score, shown[i].attemptDate))
  }

  /** What `fetchData` stores: the assessments for the select box and the rows. */
  datatype View = View(assessments: seq<Assessment>, data: seq<StudentRow>)

  /** `fetchData` once all four GETs have answered. */
  function FetchData(courses: seq<Course>, assessments: seq<Assessment>, results: seq<AttemptResult>,
                     users: seq<User>, instructorId: Option<string>): (v: View)
    ensures v.assessments == KeptAssessments(assessments, CourseMap(courses, instructorId))
    ensures v.data == Rows(results, AssessmentMap(v.assessments, CourseMap(courses, instructorId)), UsersMap(users))
    ensures forall i :: 0 <= i < |v.data| ==> v.data[i].id == i + 1
  {
    var courseMap := CourseMap(courses, instructorId);
    var kept := KeptAssessments(assessments, courseMap);
    var assessmentMap := AssessmentMap(kept, courseMap);
    View(kept, Rows(results, assessmentMap, UsersMap(users)))
  }

  /** Every row's course is the non-empty title of one of the instructor's
      courses, and its assessment is one of the listed assessments. */
  lemma RowsBelongToInstructor(courses: seq<Course>, assessments: seq<Assessment>, results: seq<AttemptResult>,
                               users: seq<User>, instructorId: Option<string>)
    ensures var v := FetchData(courses, assessments, results, users, instructorId);
      forall row :: row in v.data ==>
        && row.course != ""
        && (exists c :: c in courses && c.instructorId == instructorId && c.title == row.course)
        && (exists a :: a in v.assessments && a.assessmentId == row.assessmentId)
  {
    var courseMap := CourseMap(courses, instructorId);
    var kept := KeptAssessments(assessments, courseMap);
    var assessmentMap := AssessmentMap(kept, courseMap);
    var data := Rows(results, assessmentMap, UsersMap(users));
    KeptTitled(assessments, courseMap);
    RowsTitled(results, assessmentMap, UsersMap(users));
    RowsOrigin(courses, instructorId, courseMap, kept, assessmentMap, data);
    assert FetchData(courses, assessments, results, users, instructorId) == View(kept, data);
  }

  /** The converse of `RowsBelongToInstructor`: a result gets a row exactly
      when its assessment is one of the listed ones, and that row carries the
      result's assessment, score, date and student. */
  lemma ResultsGetRows(courses: seq<Course>, assessments: seq<Assessment>, results: seq<AttemptResult>,
                       users: seq<User>, instructorId: Option<string>)
    ensures var v := FetchData(courses, assessments, results, users, instructorId);
      forall x :: x in results ==>
        ((exists a :: a in v.assessments && a.assessmentId == x.assessmentId) <==>
         exists i :: (0 <= i < |v.data| && v.data[i].assessmentId == x.assessmentId && v.data[i].score == x.score &&
                      v.data[i].date == x.attemptDate && v.data[i].student == Lookup(UsersMap(users), x.userId)))
  {
    var courseMap := CourseMap(courses, instructorId);
    var kept := KeptAssessments(assessments, courseMap);
    var assessmentMap := AssessmentMap(kept, courseMap);
    KeptTitled(assessments, courseMap);
    assert TitlesFromAssessments(kept, courseMap, assessmentMap);
    RowsCover(kept, assessmentMap, results, UsersMap(users));
  }

  /** Rows are made for exactly the results whose assessment is a key of a
      map whose keys are the listed assessments' ids and whose titles are non-empty. */
  lemma RowsCover(kept: seq<Assessment>, assessmentMap: map<string, string>, results: seq<AttemptResult>,
                  usersMap: map<string, string>)
    requires KeysAreAssessmentIds(kept, assessmentMap)
    requires forall id :: id in assessmentMap ==> assessmentMap[id] != ""
    ensures var data := Rows(results, assessmentMap, usersMap);
      forall x :: x in results ==>
        ((exists a :: a in kept && a.assessmentId == x.assessmentId) <==>
         exists i :: (0 <= i < |data| && data[i].assessmentId == x.assessmentId && data[i].score == x.score &&
                      data[i].date == x.attemptDate && data[i].student == Lookup(usersMap, x.userId)))
  {
    var shown := ShownResults(results, assessmentMap);
    var data := Rows(results, assessmentMap, usersMap);
    forall x | x in results
      ensures (exists a :: a in kept && a.assessmentId == x.assessmentId) ==>
        exists i :: (0 <= i < |data| && data[i].assessmentId == x.assessmentId && data[i].score == x.score &&
                     data[i].date == x.attemptDate && data[i].student == Lookup(usersMap, x.userId))
    {
      if exists a :: a in kept && a.assessmentId == x.assessmentId {
        assert HasTitle(assessmentMap, x.assessmentId);
        assert x in shown;
        var i :| 0 <= i < |shown| && shown[i] == x;
        assert data[i].assessmentId == x.assessmentId;
      }
    }
  }

  /** Every listed assessment's course has a title. */
  lemma KeptTitled(assessments: seq<Assessment>, courseMap: map<string, string>)
    ensures forall a :: a in KeptAssessments(assessments, courseMap) ==> HasTitle(courseMap, a.courseId)
  {
  }

  /** Every row carries the title its assessment maps to. */
  lemma RowsTitled(results: seq<AttemptResult>, assessmentMap: map<string, string>, usersMap: map<string, string>)
    ensures var data := Rows(results, assessmentMap, usersMap);
      forall i :: 0 <= i < |data| ==>
        HasTitle(assessmentMap, data[i].assessmentId) && data[i].course == assessmentMap[data[i].assessmentId]
  {
  }

  /** The reasoning behind `RowsBelongToInstructor`, from what each step of
      `fetchData` promises: a row's title comes from the assessment map, whose
      titles come from listed assessments and, through the course map, from
      the instructor's courses. */
  lemma RowsOrigin(courses: seq<Course>, instructorId: Option<string>, courseMap: map<string, string>,
                   kept: seq<Assessment>, assessmentMap: map<string, string>, data: seq<StudentRow>)
    requires TitlesFromCourses(courses, instructorId, courseMap)
    requires TitlesFromAssessments(kept, courseMap, assessmentMap)
    requires forall i :: 0 <= i < |data| ==>
      HasTitle(assessmentMap, data[i].assessmentId) && data[i].course == assessmentMap[data[i].assessmentId]
    ensures forall row :: row in data ==>
      && row.course != ""
      && (exists c :: c in courses && c.instructorId == instructorId && c.title == row.course)
      && (exists a :: a in kept && a.assessmentId == row.assessmentId)
  {
    forall row | row in data
      ensures row.course != ""
      ensures exists c :: c in courses && c.instructorId == instructorId && c.title == row.course
      ensures exists a :: a in kept && a.assessmentId == row.assessmentId
    {
      var i :| 0 <= i < |data| && data[i] == row;
      var a :| a in kept && a.assessmentId == row.assessmentId && a.courseId in courseMap &&
               assessmentMap[row.assessmentId] == courseMap[a.courseId];
      var c :| c in courses && c.instructorId == instructorId && c.courseId == a.courseId && c.title == courseMap[a.courseId];
    }
  }

  /** `filteredData`: the empty filter shows every row; otherwise exactly the
      rows of that assessment, in order, keeping their numbers. */
  function FilteredData(data: seq<StudentRow>, assessmentFilter: string): (r: seq<StudentRow>)
    ensures assessmentFilter == "" ==> r == data
    ensures assessmentFilter != "" ==> forall row :: row in r <==> row in data && row.assessmentId == assessmentFilter
    ensures assessmentFilter != "" ==>
      forall row :: multiset(r)[row] == if row.assessmentId == assessmentFilter then multiset(data)[row] else 0
    ensures IsSubsequence(r, data)
  {
    if assessmentFilter == "" then
      SubsequenceRefl(data);
      data
    else Filter(data, (row: StudentRow) => row.assessmentId == assessmentFilter)
  }

  lemma {:induction false} SubsequenceRefl<T>(s: seq<T>)
    ensures IsSubsequence(s, s)
  {
    if |s| > 0 {
      SubsequenceRefl(s[1..]);
    }
  }

  /** Filtering does not renumber: the numbers shown stay strictly increasing,
      each row keeping the number it had in the full list. */
  lemma FilteredNumbersIncrease(data: seq<StudentRow>, assessmentFilter: string)
    requires forall i :: 0 <= i < |data| ==> data[i].id == i + 1
    ensures var r := FilteredData(data, assessmentFilter);
      forall i, j :: 0 <= i < j < |r| ==> r[i].id < r[j].id
  {
    var r := FilteredData(data, assessmentFilter);
    SubsequenceIncreasing(r, data, (row: StudentRow) => row.id as int);
  }
}

=== FILE: take_assessment.dfy ===
/** The quiz page, src/pages/TakeAssessmentPage.jsx: the session a student
    goes through while taking one assessment. The page's React state becomes
    the fields of `AttemptSession`; its effect and its two handlers become
    methods. The HTTP responses, the outcome of `JSON.parse`, the clock and
    the browser's localStorage are handed in as parameters. */
module TakeAssessment {
  import opened Base
  import opened Api
  import opened QuestionFormat

  // ------------------------------------------------------- authentication

  /** localStorage keys that may hold the bearer token, in the order they are tried. */
  const TokenKeys: seq<string> := ["token", "authToken", "accessToken"]

  const NoTokenMessage: string := "No authentication token found. Please log in again."

  datatype Headers = Headers(authorization: string, contentType: string)

  /** A localStorage entry that is present and not the empty string, as `||` sees it. */
  predicate Truthy(storage: map<string, string>, key: string)
  {
    key in storage && storage[key] != ""
  }

  /** `getAuthHeaders`: the first truthy token among `token`, `authToken` and
      `accessToken` goes into a bearer header; with none of them the request
      is refused before it is made. */
  function GetAuthHeaders(storage: map<string, string>): (r: Result<Headers, string>)
    ensures Truthy(storage, "token") ==>
      r == Success(Headers("Bearer " + storage["token"], "application/json"))
    ensures !Truthy(storage, "token") && Truthy(storage, "authToken") ==>
      r == Success(Headers("Bearer " + storage["authToken"], "application/json"))
    ensures !Truthy(storage, "token") && !Truthy(storage, "authToken") && Truthy(storage, "accessToken") ==>
      r == Success(Headers("Bearer " + storage["accessToken"], "application/json"))
    ensures r.Failure? <==> forall k :: k in TokenKeys ==> !Truthy(storage, k)
    ensures r.Failure? ==> r.error == NoTokenMessage
  {
    match FirstIndex(TokenKeys, (k: string) => Truthy(storage, k))
    case None => Failure(NoTokenMessage)
    case Some(i) => Success(Headers("Bearer " + storage[TokenKeys[i]], "application/json"))
  }

  // ------------------------------------------------------------- loading

  /** A failed load: the HTTP status when the server answered, and the error's message. */
  datatype LoadError = LoadError(status: Option<int>, message: string)

  const DefaultLoadMessage: string := "Failed to load assessment."

  /** The message the page shows for a failed load. */
  function LoadErrorMessage(e: LoadError): (r: string)
    ensures r != []
    ensures e.status == Some(401) ==> r == "Authentication failed. Please log in again."
    ensures e.status == Some(403) ==> r == "You don\U{2019}t have permission to access this assessment."
    ensures e.status != Some(401) && e.status != Some(403) ==>
      r == if e.message != [] then e.message else DefaultLoadMessage
  {
    if e.status == Some(401) then "Authentication failed. Please log in again."
    else if e.status == Some(403) then "You don\U{2019}t have permission to access this assessment."
    else if e.message != [] then e.message
    else DefaultLoadMessage
  }

  /** `JSON.parse` of `payload` ended in `json`: a value came out only of a
      text that looks like JSON. A missing payload is either `null`, which
      parses as a value that is not an array, or `undefined`, on which the
      parser throws. */
  predicate ParsedAs(payload: Option<string>, json: JsonOutcome)
  {
    match payload
    case None => json.JsonNonArray? || json.JsonSyntaxError?
    case Some(text) => json.JsonSyntaxError? || StartsLikeJson(text)
  }

  /** The question list a fetched assessment yields: a JSON array is taken as
      it is, any other JSON value gives no questions, and text that is not
      JSON is read as the plain-text question format. */
  function LoadQuestions(payload: Option<string>, json: JsonOutcome): (qs: seq<Question>)
    ensures json.JsonArray? ==> qs == json.items
    ensures json.JsonNonArray? ==> qs == []
    ensures json.JsonSyntaxError? ==> forall i :: 0 <= i < |qs| ==> IsReadable(qs[i])
    ensures json.JsonSyntaxError? ==> |qs| <= if payload.None? then 0 else |Text.Split(payload.value, "\n\n")|
  {
    match json
    case JsonArray(items) => items
    case JsonNonArray => []
    case JsonSyntaxError => ParseFormattedQuestions(payload)
  }

  /** The text the assessment form writes is never taken for JSON, so the quiz
      page reads back exactly the questions the instructor entered. */
  lemma WrittenQuestionsLoad(qs: seq<Question>, json: JsonOutcome)
    requires forall i :: 0 <= i < |qs| ==> IsWritable(qs[i])
    requires ParsedAs(Some(Serialize(qs)), json)
    ensures LoadQuestions(Some(Serialize(qs)), json) == qs
  {
    var text := Serialize(qs);
    if |qs| == 0 {
      EmptyRoundTrip();
    } else {
      SerializedNotBlank(qs);
      assert !StartsLikeJson(text) by {
        forall i | 0 <= i < |text|
          ensures !((forall j :: 0 <= j < i ==> IsJsonSpace(text[j])) && text[i] in "{[\"-0123456789tfn")
        {
          assert !IsJsonSpace(text[0]);
        }
      }
    }
    RoundTrip(qs);
  }

  // ------------------------------------------------------------- scoring

  /** Question `i` has an answer and it is exactly the correct one. */
  predicate AnsweredCorrectly(questions: seq<Question>, answers: map<nat, string>, i: int)
    requires 0 <= i < |questions|
  {
    i in answers && answers[i] == questions[i].correctAnswer
  }

  /** Indices below `k` of the correctly answered questions. */
  ghost function CorrectIndices(questions: seq<Question>, answers: map<nat, string>, k: int): set<int>
    requires 0 <= k <= |questions|
  {
    set i | 0 <= i < k && AnsweredCorrectly(questions, answers, i)
  }

  lemma CorrectIndicesStep(questions: seq<Question>, answers: map<nat, string>, k: int)
    requires 0 <= k < |questions|
    ensures k !in CorrectIndices(questions, answers, k)
    ensures CorrectIndices(questions, answers, k + 1) ==
      CorrectIndices(questions, answers, k) + (if AnsweredCorrectly(questions, answers, k) then {k} else {})
  {
  }

  /** At most `k` of the first `k` questions are answered correctly. */
  lemma {:induction false} CorrectIndicesBound(questions: seq<Question>, answers: map<nat, string>, k: int)
    requires 0 <= k <= |questions|
    ensures |CorrectIndices(questions, answers, k)| <= k
  {
    if k > 0 {
      CorrectIndicesBound(questions, answers, k - 1);
      CorrectIndicesStep(questions, answers, k - 1);
    }
  }

  /** How many of the questions are answered correctly. */
  ghost function CorrectCount(questions: seq<Question>, answers: map<nat, string>): (c: nat)
    ensures c <= |questions|
  {
    CorrectIndicesBound(questions, answers, |questions|);
    |CorrectIndices(questions, answers, |questions|)|
  }

  /** The counting loop of `handleSubmit`: the number of questions whose
      recorded answer is the correct one. */
  method CountCorrect(questions: seq<Question>, answers: map<nat, string>) returns (correct: nat)
    ensures correct == CorrectCount(questions, answers)
  {
    correct := 0;
    var i := 0;
    while i < |questions|
      invariant 0 <= i <= |questions|
      invariant correct == |CorrectIndices(questions, answers, i)|
    {
      CorrectIndicesStep(questions, answers, i);
      if i in answers && answers[i] == questions[i].correctAnswer {
        correct := correct + 1;
      }
      i := i + 1;
    }
  }

  /** The score: the fraction of correct answers times the maximum score,
      rounded to the nearest integer with halves rounded up, taken over the
      exact rational correct·maxScore/n. */
  function Score(correct: nat, n: nat, maxScore: int): (r: int)
    requires 0 < n && correct <= n
    ensures 2 * n * r <= 2 * correct * maxScore + n < 2 * n * r + 2 * n
    ensures maxScore >= 0 ==> 0 <= r <= maxScore
    ensures correct == n ==> r == maxScore
    ensures correct == 0 ==> r == 0
  {
    var r := (2 * correct * maxScore + n) / (2 * n);
    ScoreBounds(correct, n, maxScore, r);
    r
  }

  lemma ScoreBounds(correct: nat, n: nat, maxScore: int, r: int)
    requires 0 < n && correct <= n
    requires r == (2 * correct * maxScore + n) / (2 * n)
    ensures 2 * n * r <= 2 * correct * maxScore + n < 2 * n * r + 2 * n
    ensures maxScore >= 0 ==> 0 <= r <= maxScore
    ensures correct == n ==> r == maxScore
    ensures correct == 0 ==> r == 0
  {
    DivBounds(2 * correct * maxScore + n, 2 * n);
    if maxScore >= 0 {
      ScoreAtMostMax(correct, n, maxScore, r);
    }
    if correct == n {
      DivUnique(2 * correct * maxScore + n, 2 * n, maxScore);
    }
    if correct == 0 {
      DivUnique(2 * correct * maxScore + n, 2 * n, 0);
    }
  }

  lemma DivBounds(x: int, d: int)
    requires d > 0
    ensures d * (x / d) <= x < d * (x / d) + d
  {
  }

  lemma ScoreAtMostMax(correct: nat, n: nat, maxScore: int, r: int)
    requires 0 < n && correct <= n && maxScore >= 0
    requires 2 * n * r <= 2 * correct * maxScore + n
    ensures r <= maxScore
  {
    MulLeft(correct, n, maxScore);
    assert 2 * n * r < 2 * n * (maxScore + 1);
    MulCancel(2 * n, r, maxScore + 1);
  }

  lemma MulLeft(a: int, b: int, m: int)
    requires a <= b && m >= 0
    ensures a * m <= b * m
  {
    assert b * m - a * m == (b - a) * m;
  }

  lemma MulCancel(d: int, a: int, b: int)
    requires d > 0 && d * a < d * b
    ensures a < b
  {
    assert d * (b - a) == d * b - d * a;
  }

  lemma DivUnique(x: int, d: int, q: int)
    requires d > 0 && d * q <= x < d * q + d
    ensures x / d == q
  {
    var r := x / d;
    assert d * r <= x < d * r + d;
    assert d * r < d * (q + 1);
    MulCancel(d, r, q + 1);
    assert d * q < d * (r + 1);
    MulCancel(d, q, r + 1);
  }

  /** Whole seconds elapsed between two clock readings in milliseconds, rounded down. */
  function ElapsedSeconds(start: int, now: int): (s: int)
    ensures 1000 * s <= now - start < 1000 * s + 1000
  {
    (now - start) / 1000
  }

  // ------------------------------------------------------------ history

  /** One entry of the browser-side attempt history ('userResults'); the
      attempt date is left out. */
  datatype ResultRecord = ResultRecord(assessmentId: string, assessmentTitle: string, score: int,
                                       maxScore: int, timeTaken: int, questions: nat, correctAnswers: nat)

  /** The 'userResults' slot of localStorage: absent (or empty), a JSON array
      of records, or something the page cannot append to (text that is not
      JSON, or JSON that is not an array). */
  datatype StoredHistory = NoHistory | History(entries: seq<ResultRecord>) | Unusable

  /** The records the slot holds, as the page reads them: a missing slot reads as the empty list. */
  function Entries(h: StoredHistory): seq<ResultRecord>
  {
    match h
    case NoHistory => []
    case History(entries) => entries
    case Unusable => []
  }

  /** Read the history, push one record, write it back; a slot that cannot be
      read or pushed to is left as it is (the error is swallowed). */
  function AppendResult(h: StoredHistory, rec: ResultRecord): (r: StoredHistory)
    ensures h.Unusable? ==> r == h
    ensures !h.Unusable? ==> r.History? && |Entries(r)| == |Entries(h)| + 1
    ensures !h.Unusable? ==> Entries(r)[..|Entries(h)|] == Entries(h) && Entries(r)[|Entries(h)|] == rec
  {
    match h
    case NoHistory => History([rec])
    case History(entries) => History(entries + [rec])
    case Unusable => Unusable
  }

  /** Appending keeps earlier attempts in the order they were made. */
  lemma {:induction false} AppendResultsInOrder(h: StoredHistory, recs: seq<ResultRecord>)
    requires !h.Unusable?
    ensures Entries(AppendAll(h, recs)) == Entries(h) + recs
    decreases |recs|
  {
    if |recs| > 0 {
      var h1 := AppendResult(h, recs[0]);
      assert Entries(h1) == Entries(h) + [recs[0]];
      AppendResultsInOrder(h1, recs[1..]);
      assert Entries(h) + [recs[0]] + recs[1..] == Entries(h) + recs;
    }
  }

  /** The history after several attempts, one append after another. */
  function AppendAll(h: StoredHistory, recs: seq<ResultRecord>): StoredHistory
    decreases |recs|
  {
    if |recs| == 0 then h else AppendAll(AppendResult(h, recs[0]), recs[1..])
  }

  // ------------------------------------------------------------ session

  /** The body of the POST to /Results. The attempt date is left out. */
  datatype PostedResult = PostedResult(assessmentId: string, userId: Option<string>, score: int, timeTaken: int)

  /** The page's state while a student takes one assessment. */
  class AttemptSession {
    var assessment: Option<Assessment>
    var questions: seq<Question>
    /** Selected option per question index. */
    var answers: map<nat, string>
    var submitted: bool
    var score: Option<int>
    /** Milliseconds on the clock when the questions arrived. */
    var startTime: Option<int>
    var loading: bool
    var error: Option<string>
    var resultSubmitted: bool

    /** Questions are only ever shown together with their assessment and a start time. */
    predicate Valid()
      reads this
    {
      |questions| > 0 ==> assessment.Some? && startTime.Some?
    }

    /** The state before the first render. */
    constructor ()
      ensures Valid()
      ensures assessment == None && questions == [] && answers == map[] && !submitted
      ensures score == None && startTime == None && loading && error == None && !resultSubmitted
    {
      assessment := None;
      questions := [];
      answers := map[];
      submitted := false;
      score := None;
      startTime := None;
      loading := true;
      error := None;
      resultSubmitted := false;
    }

    /** The effect that fetches assessment `id`. `response` is what the GET
        gives back, `json` what `JSON.parse` makes of its question text, and
        `now` the clock. Returns whether the GET was sent. */
    method Load(id: string, storage: map<string, string>, response: Result<Assessment, LoadError>,
                json: JsonOutcome, now: int) returns (requested: bool)
      requires Valid()
      modifies this
      ensures Valid()
      ensures requested <==> id != "" && GetAuthHeaders(storage).Success?
      ensures id == "" ==> unchanged(this)
      ensures id != "" ==> !loading
      ensures answers == old(answers) && submitted == old(submitted) && score == old(score)
      ensures resultSubmitted == old(resultSubmitted)
      ensures id != "" && !requested ==>
        error == Some(NoTokenMessage) && assessment == old(assessment) && questions == old(questions)
        && startTime == old(startTime)
      ensures requested && response.Failure? ==>
        error == Some(LoadErrorMessage(response.error)) && assessment == old(assessment)
        && questions == old(questions) && startTime == old(startTime)
      ensures requested && response.Success? ==>
        assessment == Some(response.value) && questions == LoadQuestions(response.value.question, json)
        && startTime == Some(now) && error == old(error)
    {
      requested := false;
      if id == "" {
        return;
      }
      loading := true;
      var headers := GetAuthHeaders(storage);
      if headers.Failure? {
        error := Some(LoadErrorMessage(LoadError(None, headers.error)));
      } else {
        requested := true;
        Receive(response, json, now);
      }
      loading := false;
    }

    /** What the effect does with the answer to its GET. */
    method Receive(response: Result<Assessment, LoadError>, json: JsonOutcome, now: int)
      requires Valid()
      modifies this
      ensures Valid()
      ensures answers == old(answers) && submitted == old(submitted) && score == old(score)
      ensures resultSubmitted == old(resultSubmitted) && loading == old(loading)
      ensures response.Failure? ==>
        error == Some(LoadErrorMessage(response.error)) && assessment == old(assessment)
        && questions == old(questions) && startTime == old(startTime)
      ensures response.Success? ==>
        assessment == Some(response.value) && questions == LoadQuestions(response.value.question, json)
        && startTime == Some(now) && error == old(error)
    {
      match response {
        case Failure(e) =>
          error := Some(LoadErrorMessage(e));
        case Success(a) =>
          assessment := Some(a);
          questions := LoadQuestions(a.question, json);
          startTime := Some(now);
      }
    }

    /** `handleOptionSelect`: record `option` as the answer to question
        `qIndex`, unless the attempt has been submitted. */
    method SelectOption(qIndex: nat, option: string)
      requires Valid()
      modifies this
      ensures Valid()
      ensures old(submitted) ==> answers == old(answers)
      ensures !old(submitted) ==> answers == old(answers)[qIndex := option]
      ensures assessment == old(assessment) && questions == old(questions) && submitted == old(submitted)
      ensures score == old(score) && startTime == old(startTime) && loading == old(loading)
      ensures error == old(error) && resultSubmitted == old(resultSubmitted)
    {
      if submitted {
        return;
      }
      answers := answers[qIndex := option];
    }

    /** `handleSubmit`: score the attempt, append it to the local history
        `history` and post it. `now` is the clock; `postSucceeds` is the
        outcome of the POST, should one be sent. Returns the new history and
        the body posted, if any. */
    method Submit(storage: map<string, string>, history: StoredHistory, now: int, postSucceeds: bool)
      returns (newHistory: StoredHistory, post: Option<PostedResult>)
      requires Valid()
      modifies this
      ensures Valid()
      ensures assessment == old(assessment) && questions == old(questions) && answers == old(answers)
      ensures startTime == old(startTime) && loading == old(loading) && error == old(error)
      ensures old(submitted) || |questions| == 0 ==>
        newHistory == history && post == None && submitted == old(submitted) && score == old(score)
        && resultSubmitted == old(resultSubmitted)
      ensures !old(submitted) && |questions| > 0 ==>
        var a := assessment.value;
        var n := |questions|;
        var correct := CorrectCount(questions, answers);
        var s := Score(correct, n, a.maxScore);
        var seconds := ElapsedSeconds(startTime.value, now);
        && submitted && score == Some(s)
        && newHistory == AppendResult(history, ResultRecord(a.assessmentId, a.title, s, a.maxScore, seconds, n, correct))
        && (post.Some? <==> GetAuthHeaders(storage).Success?)
        && (post.Some? ==> post.value == PostedResult(a.assessmentId, Lookup(storage, "userId"), s, seconds))
        && (resultSubmitted <==> post.Some? && postSucceeds)
    {
      newHistory := history;
      post := None;
      if submitted || |questions| == 0 {
        return;
      }
      var correct := CountCorrect(questions, answers);
      var a := assessment.value;
      var calculated := Score(correct, |questions|, a.maxScore);
      score := Some(calculated);
      submitted := true;
      var timeTaken := ElapsedSeconds(startTime.value, now);
      newHistory := AppendResult(history, ResultRecord(a.assessmentId, a.title, calculated, a.maxScore,
                                                       timeTaken, |questions|, correct));
      match GetAuthHeaders(storage)
      case Failure(_) =>
        resultSubmitted := false;
      case Success(_) =>
        post := Some(PostedResult(a.assessmentId, Lookup(storage, "userId"), calculated, timeTaken));
        resultSubmitted := postSucceeds;
    }
  }
}

=== FILE: text.dfy ===
/** The JavaScript string operations the question format is built from:
    `trim`, the `\s` character class, `split` with a string separator,
    `join`, and the decimal rendering of a number in a template literal. */
module Text {

  /** The characters JavaScript's `trim` removes and its regular expressions
      match with `\s`: the WhiteSpace and LineTerminator code points of
      ECMAScript. */
  predicate IsSpace(c: char)
  {
    || c == ' ' || c == '\t' || c == '\n' || c == '\U{000B}' || c == '\U{000C}' || c == '\r'
    || c == '\U{00A0}' || c == '\U{1680}' || ('\U{2000}' <= c <= '\U{200A}')
    || c == '\U{2028}' || c == '\U{2029}' || c == '\U{202F}' || c == '\U{205F}'
    || c == '\U{3000}' || c == '\U{FEFF}'
  }

  /** `\d` in a JavaScript regular expression. */
  predicate IsDigit(c: char)
  {
    '0' <= c <= '9'
  }

  predicate IsBlank(s: string)
  {
    forall i :: 0 <= i < |s| ==> IsSpace(s[i])
  }

  /** Neither end is whitespace. */
  predicate IsTrimmed(s: string)
  {
    s == [] || (!IsSpace(s[0]) && !IsSpace(s[|s| - 1]))
  }

  predicate StartsWith(s: string, prefix: string)
  {
    |prefix| <= |s| && s[..|prefix|] == prefix
  }

  /** `trimStart`, and also what a leading `\s*` in a regular expression
      consumes. */
  function TrimStart(s: string): (r: string)
    ensures |r| <= |s|
    ensures forall i :: 0 <= i < |s| - |r| ==> IsSpace(s[i])
    ensures r == [] || !IsSpace(r[0])
    ensures r != [] ==> r[0] == s[|s| - |r|] && r[|r| - 1] == s[|s| - 1]
  {
    if |s| > 0 && IsSpace(s[0]) then TrimStart(s[1..]) else s
  }

  /** What `trimStart` leaves is the tail of the string, character by character. */
  lemma {:induction false} TrimStartAt(s: string, i: int)
    requires 0 <= i < |TrimStart(s)|
    ensures TrimStart(s)[i] == s[|s| - |TrimStart(s)| + i]
    decreases |s|
  {
    if |s| > 0 && IsSpace(s[0]) {
      TrimStartAt(s[1..], i);
    }
  }

  /** A character missing from a string is missing from each of its tails. */
  lemma DropKeepsOut(s: string, k: int, c: char)
    requires 0 <= k <= |s| && c !in s
    ensures c !in s[k..]
  {
    forall j | 0 <= j < |s[k..]| ensures s[k..][j] != c {
      assert s[k..][j] == s[k + j];
    }
  }

  function TrimEnd(s: string): (r: string)
    ensures |r| <= |s| && forall i :: 0 <= i < |r| ==> r[i] == s[i]
    ensures forall i :: |r| <= i < |s| ==> IsSpace(s[i])
    ensures r == [] || !IsSpace(r[|r| - 1])
  {
    if |s| > 0 && IsSpace(s[|s| - 1]) then TrimEnd(s[..|s| - 1]) else s
  }

  /** `String.prototype.trim`: the part of `s` between a blank prefix and a
      blank suffix, which is itself trimmed. */
  function Trim(s: string): (r: string)
    ensures IsTrimmed(r) && |r| <= |s|
    ensures r == [] <==> IsBlank(s)
    ensures exists i, j :: 0 <= i <= j <= |s| && r == s[i..j] && IsBlank(s[..i]) && IsBlank(s[j..])
  {
    var t := TrimStart(s);
    var r := TrimEnd(t);
    assert t != [] ==> !IsSpace(t[0]);
    TrimSlice(s);
    r
  }

  /** What `trim` keeps is a slice of its input with blank text on either side. */
  lemma TrimSlice(s: string)
    ensures var r := TrimEnd(TrimStart(s));
      exists i, j :: 0 <= i <= j <= |s| && r == s[i..j] && IsBlank(s[..i]) && IsBlank(s[j..])
  {
    var t := TrimStart(s);
    TrimStartSuffix(s);
    SliceBetweenBlanks(s, t, TrimEnd(t));
  }

  /** What `trimStart` leaves is a suffix of the string. */
  lemma {:induction false} TrimStartSuffix(s: string)
    ensures TrimStart(s) == s[|s| - |TrimStart(s)|..]
    decreases |s|
  {
    if |s| > 0 && IsSpace(s[0]) {
      TrimStartSuffix(s[1..]);
      assert s[1..][|s[1..]| - |TrimStart(s[1..])|..] == s[|s| - |TrimStart(s)|..];
    }
  }

  /** A prefix `r` of a tail `t` of `s`, with blank text before `t` and
      after `r`, is a slice of `s` between a blank prefix and a blank suffix. */
  lemma SliceBetweenBlanks(s: string, t: string, r: string)
    requires |t| <= |s| && t == s[|s| - |t|..]
    requires forall k :: 0 <= k < |s| - |t| ==> IsSpace(s[k])
    requires |r| <= |t| && forall k :: 0 <= k < |r| ==> r[k] == t[k]
    requires forall k :: |r| <= k < |t| ==> IsSpace(t[k])
    ensures exists i, j :: 0 <= i <= j <= |s| && r == s[i..j] && IsBlank(s[..i]) && IsBlank(s[j..])
  {
    var i := |s| - |t|;
    var j := i + |r|;
    assert r == s[i..j];
    assert IsBlank(s[..i]);
    forall k | 0 <= k < |s| - j ensures IsSpace(s[j..][k]) {
      assert s[j..][k] == t[|r| + k];
    }
  }

  /** A character missing from a string is missing from what `trimStart`
      and `trim` leave of it. */
  lemma TrimKeepsOut(s: string, c: char)
    requires c !in s
    ensures c !in TrimStart(s) && c !in Trim(s)
  {
    var t := TrimStart(s);
    forall i | 0 <= i < |t| ensures t[i] != c {
      TrimStartAt(s, i);
    }
    var r := TrimEnd(t);
    forall i | 0 <= i < |r| ensures r[i] != c {
      assert r[i] == t[i];
    }
  }

  /** Trimming what is already trimmed changes nothing. */
  lemma TrimTrimmed(s: string)
    requires IsTrimmed(s)
    ensures Trim(s) == s
  {
  }

  /** Leading whitespace does not survive `trimStart`. */
  lemma {:induction false} TrimStartBlankPrefix(w: string, x: string)
    requires IsBlank(w)
    ensures TrimStart(w + x) == TrimStart(x)
  {
    if |w| > 0 {
      assert (w + x)[1..] == w[1..] + x;
      TrimStartBlankPrefix(w[1..], x);
    } else {
      assert w + x == x;
    }
  }

  /** A trimmed string behind blank padding comes back out of `trim`. */
  lemma TrimBlankPrefix(w: string, x: string)
    requires IsBlank(w) && IsTrimmed(x)
    ensures Trim(w + x) == x
  {
    TrimStartBlankPrefix(w, x);
  }

  /** Number of leading `\d` characters: how far a greedy `\d+` reaches. */
  function DigitRun(s: string): (k: nat)
    ensures k <= |s|
    ensures forall i :: 0 <= i < k ==> IsDigit(s[i])
    ensures k == |s| || !IsDigit(s[k])
  {
    if |s| > 0 && IsDigit(s[0]) then 1 + DigitRun(s[1..]) else 0
  }

  /** A digit run is read to its end, whatever follows a non-digit. */
  lemma {:induction false} DigitRunPrefix(d: string, x: string)
    requires forall i :: 0 <= i < |d| ==> IsDigit(d[i])
    requires x == [] || !IsDigit(x[0])
    ensures DigitRun(d + x) == |d|
  {
    if |d| > 0 {
      assert (d + x)[1..] == d[1..] + x;
      DigitRunPrefix(d[1..], x);
    } else {
      assert d + x == x;
    }
  }

  function DigitChar(d: nat): (c: char)
    requires d < 10
    ensures IsDigit(c)
  {
    ['0', '1', '2', '3', '4', '5', '6', '7', '8', '9'][d]
  }

  /** The number a string of decimal digits denotes, read left to right;
      the empty string denotes 0. */
  function DigitsValue(s: string): nat
  {
    if |s| == 0 then 0
    else if IsDigit(s[|s| - 1]) then 10 * DigitsValue(s[..|s| - 1]) + (s[|s| - 1] as int - '0' as int)
    else 10 * DigitsValue(s[..|s| - 1])
  }

  /** Decimal rendering of a natural number, as `${n}` in a template literal. */
  function NatToString(n: nat): (r: string)
    ensures |r| >= 1
    ensures forall i :: 0 <= i < |r| ==> IsDigit(r[i])
  {
    if n < 10 then [DigitChar(n)] else NatToString(n / 10) + [DigitChar(n % 10)]
  }

  /** The digits `NatToString` writes denote `n`, without a leading zero
      unless `n` is zero: the usual decimal numeral of `n`. */
  lemma {:induction false} NatToStringValue(n: nat)
    ensures DigitsValue(NatToString(n)) == n
    ensures n > 0 ==> NatToString(n)[0] != '0'
    ensures n == 0 ==> NatToString(n) == "0"
  {
    var r := NatToString(n);
    if n >= 10 {
      var d := DigitChar(n % 10);
      NatToStringValue(n / 10);
      assert r[..|r| - 1] == NatToString(n / 10) && r[|r| - 1] == d;
      assert d as int - '0' as int == n % 10;
      assert r[0] == NatToString(n / 10)[0];
    }
  }

  /** `Array.prototype.join(sep)`. */
  function JoinWith(parts: seq<string>, sep: string): string
  {
    if |parts| == 0 then ""
    else if |parts| == 1 then parts[0]
    else parts[0] + sep + JoinWith(parts[1..], sep)
  }

  /** `String.prototype.split(sep)` for a non-empty string separator: the
      leftmost occurrence is cut first, occurrences do not overlap, and the
      result always has at least one piece. */
  function Split(s: string, sep: string): (r: seq<string>)
    requires |sep| > 0
    ensures |r| >= 1
  {
    if |s| < |sep| then [s]
    else if s[..|sep|] == sep then [""] + Split(s[|sep|..], sep)
    else
      var rest := Split(s[1..], sep);
      [[s[0]] + rest[0]] + rest[1..]
  }

  /** A character missing from a string is missing from every piece `split` cuts it into. */
  lemma {:induction false} SplitKeepsOut(s: string, sep: string, c: char)
    requires |sep| > 0 && c !in s
    ensures forall k :: 0 <= k < |Split(s, sep)| ==> c !in Split(s, sep)[k]
    decreases |s|
  {
    if |s| >= |sep| {
      var t := if s[..|sep|] == sep then s[|sep|..] else s[1..];
      assert c !in t by {
        forall j | 0 <= j < |t| ensures t[j] != c {
          assert t[j] in s;
        }
      }
      SplitKeepsOut(t, sep, c);
    }
  }

  /** No piece of a split at a one-character separator holds that character. */
  lemma {:induction false} SplitDropsSeparator(s: string, c: char)
    ensures forall k :: 0 <= k < |Split(s, [c])| ==> c !in Split(s, [c])[k]
    decreases |s|
  {
    if |s| >= 1 {
      SplitDropsSeparator(s[1..], c);
    }
  }

  /** Splitting then joining with the same separator gives the string back. */
  lemma {:induction false} JoinSplit(s: string, sep: string)
    requires |sep| > 0
    ensures JoinWith(Split(s, sep), sep) == s
    decreases |s|
  {
    if |s| < |sep| {
    } else if s[..|sep|] == sep {
      var rest := Split(s[|sep|..], sep);
      JoinSplit(s[|sep|..], sep);
      assert ([""] + rest)[1..] == rest;
      assert s == s[..|sep|] + s[|sep|..];
    } else {
      JoinSplit(s[1..], sep);
      JoinExtendFirst(s[0], Split(s[1..], sep), sep);
      assert s == [s[0]] + s[1..];
    }
  }

  /** Gluing a character onto the first piece glues it onto the joined string. */
  lemma JoinExtendFirst(c: char, parts: seq<string>, sep: string)
    requires |parts| >= 1
    ensures JoinWith([[c] + parts[0]] + parts[1..], sep) == [c] + JoinWith(parts, sep)
  {
    var r := [[c] + parts[0]] + parts[1..];
    assert r[1..] == parts[1..];
    if |parts| > 1 {
      assert JoinWith(r, sep) == [c] + parts[0] + sep + JoinWith(parts[1..], sep);
    }
  }

  /** No occurrence of `sep` starts inside `p`, even one that runs on into a
      following separator: `p` comes back whole when it is followed by `sep`. */
  predicate Unseparated(p: string, sep: string)
  {
    forall i :: 0 <= i < |p| ==> !StartsWith((p + sep)[i..], sep)
  }

  /** A piece without the separator's first character is unseparated. */
  lemma LacksFirstUnseparated(p: string, sep: string)
    requires |sep| > 0 && sep[0] !in p
    ensures Unseparated(p, sep)
  {
    forall i | 0 <= i < |p| ensures !StartsWith((p + sep)[i..], sep) {
      assert (p + sep)[i..][0] == p[i];
    }
  }

  /** For the blank-line separator it is enough that every line break in `p`
      is followed by a character that is not a line break. */
  lemma SingleBreaksUnseparated(p: string)
    requires forall i :: 0 <= i < |p| && p[i] == '\n' ==> i + 1 < |p| && p[i + 1] != '\n'
    ensures Unseparated(p, "\n\n")
  {
    forall i | 0 <= i < |p| ensures !StartsWith((p + "\n\n")[i..], "\n\n") {
      var t := (p + "\n\n")[i..];
      assert t[0] == p[i];
      if p[i] == '\n' {
        assert t[1] == p[i + 1];
      }
    }
  }

  /** An unseparated piece followed by the separator is cut off whole. */
  lemma {:induction false} SplitUnseparated(p: string, sep: string, rest: string)
    requires |sep| > 0 && Unseparated(p, sep)
    ensures Split(p + sep + rest, sep) == [p] + Split(rest, sep)
    decreases |p|
  {
    var s := p + sep + rest;
    if |p| == 0 {
      assert s == sep + rest;
      assert s[..|sep|] == sep;
      assert s[|sep|..] == rest;
    } else {
      assert (p + sep)[0..] == p + sep;
      assert s[..|sep|] == (p + sep)[0..][..|sep|];
      assert s[..|sep|] != sep;
      assert Unseparated(p[1..], sep) by {
        forall i | 0 <= i < |p[1..]| ensures !StartsWith((p[1..] + sep)[i..], sep) {
          assert (p[1..] + sep)[i..] == (p + sep)[i + 1..];
        }
      }
      assert s[1..] == p[1..] + sep + rest;
      SplitUnseparated(p[1..], sep, rest);
      assert [p[0]] + p[1..] == p;
    }
  }

  /** An unseparated piece on its own is not cut at all. */
  lemma {:induction false} SplitUnseparatedLast(p: string, sep: string)
    requires |sep| > 0 && Unseparated(p, sep)
    ensures Split(p, sep) == [p]
    decreases |p|
  {
    if |p| >= |sep| {
      assert (p + sep)[0..] == p + sep;
      assert p[..|sep|] == (p + sep)[0..][..|sep|];
      assert p[..|sep|] != sep;
      assert Unseparated(p[1..], sep) by {
        forall i | 0 <= i < |p[1..]| ensures !StartsWith((p[1..] + sep)[i..], sep) {
          assert (p[1..] + sep)[i..] == (p + sep)[i + 1..];
        }
      }
      SplitUnseparatedLast(p[1..], sep);
      assert [p[0]] + p[1..] == p;
    }
  }

  /** Joining unseparated pieces and splitting again gives the pieces back. */
  lemma {:induction false} SplitJoin(parts: seq<string>, sep: string)
    requires |sep| > 0 && |parts| >= 1
    requires forall k :: 0 <= k < |parts| ==> Unseparated(parts[k], sep)
    ensures Split(JoinWith(parts, sep), sep) == parts
  {
    if |parts| == 1 {
      SplitUnseparatedLast(parts[0], sep);
    } else {
      SplitJoin(parts[1..], sep);
      SplitUnseparated(parts[0], sep, JoinWith(parts[1..], sep));
      assert [parts[0]] + parts[1..] == parts;
    }
  }
}
